=== FILE: README.md ===
# Lucky draw: participant registry, draw screen and editors

This project models the core of a "lucky draw" web application in Dafny.
Organisers create campaigns with prize lists. Attendees check in through a
form. A "big screen" page draws winners and learns about check-ins and
winners from socket.io events published to a per-campaign room.

The model has these parts:

- `Records`: the rows of the `campaigns` and `participants` tables and the prize entries.
- `Lists` and `Roster`: the filter and map operations that the server and the pages both perform on participant lists. These are the campaign listing, the eligible pool (everyone not `WON`), replace-by-id and delete-by-id.
- `Events` and `Rooms`: the three participant events plus `start_spin`, and the room → socket-set relation that `io.to(room).emit` fans out over.
- `Server`: the Express handlers over an in-memory copy of the two tables. Each handler returns the new tables, the HTTP outcome (`Ok`, 404, or 500 for any exception) and the emits it made. The UUID the server would generate is passed in.
- `BigScreen`: the draw page as a state machine. It covers the socket reducers, the spin guard, the final pick, the prize cursor and the "new participant" banner.
- `Dashboard`: the campaign editor's prize list, the request a save sends, the quantity input and the players panel.
- `CheckInForm`: the attendee form, IDLE → SUBMITTING → SUCCESS/ERROR.
- `JsText`: `String.prototype.trim` and `parseInt`, which the dashboard relies on.
- `Sync`: how the pieces fit. A screen that shows the server's listing of its campaign keeps showing it through every request, once it applies the events emitted to its room. One draw round trip removes exactly the winner from the pool. Two screens can both draw, because nothing on the server stops it.

The model follows the code, not a more careful design. In particular:

- Check-in never compares phone numbers, so duplicates are accepted (`Server.DuplicatePhoneAccepted`).
- A second win on the same participant succeeds and overwrites the prize (`Server.SecondWinOverwrites`).
- No prize quantity is ever decremented.
- There is no server-side draw lock. The only guard is the big screen's own `isSpinning` flag (`Sync.NoServerSideDrawLock`).
- The dashboard sends DELETE and reset requests, but the server has no routes for them. They get Express's default 404 and change nothing (`Server.Handle`, `Sync.DeleteNeverApplies`).
- The check-in form has a message for a 409 that the server never sends (`CheckInForm.NeverPhoneTaken`).

Other modelling choices:

- The participants table is a sequence of rows in insertion order, with unique ids (the PRIMARY KEY).
- Request fields that may be missing are `Option`s. A missing NOT NULL column makes the INSERT fail, which is a 500.
- The check-in INSERT also fails for a `campaign_id` that names no campaign. This follows the FOREIGN KEY of `server/database.js:25`, enforced because better-sqlite3 turns foreign-key enforcement on by default.
- A win on an unknown id runs an UPDATE that matches nothing. The handler then reads `campaign_id` of `undefined`, which throws, so the reply is a 500 with no broadcast.
- In a campaign update, `if (name)` means present and non-empty. `if (prizes)` means present: an empty array is truthy, so saving an all-blank prize list stores `[]`.
- A spin animation reads the eligible pool, campaign and prize cursor of the render in which it started. The model keeps these snapshots in `PendingDraw`s. Several animations can be running if a `winner_selected` clears `isSpinning` while one is still running.
- If there is no current prize, the finished spin sends nothing, and only a later `winner_selected` clears `isSpinning`. So on a campaign without prizes the page stays "spinning" and ignores every later spin (`BigScreen.SpinWithoutPrizeStaysSpinning`). A failed win POST leaves it spinning in the same way.
- The next-prize button exists only inside the winner overlay (client/src/pages/BigScreen.jsx:316-343), so the page's next-prize step needs a shown winner.
- A socket message gets no HTTP reply. Its outcome is `NoReply`.
- The `disconnect` handler only logs. The socket leaving all its rooms is socket.io's own behaviour on disconnect, and `Rooms.Disconnect` models that.
- `Math.random` becomes an index `k` in `[0, |pool|)`. That range is what `Math.floor(Math.random() * n)` yields.

## Model

| member | source | states |
|---|---|---|
| Roster.Eligible | client/src/pages/BigScreen.jsx:101 | the pool holds exactly the participants whose status is not WON, with their multiplicities, in list order |
| Roster.InCampaign | server/index.js:101 | the listing holds exactly the rows of that campaign, in table order |
| Roster.WithoutId | client/src/pages/BigScreen.jsx:62-63 | every entry with the id is gone; every other entry stays, in order and as often as it occurred |
| Roster.ReplaceById | client/src/pages/BigScreen.jsx:52-54 | length and ids are kept; entries with the record's id become the record and all others are untouched; the record is present afterwards iff its id was |
| Roster.EligibleAfterJoin | client/src/pages/BigScreen.jsx:44-45 | a non-winner who joins goes to the end of the eligible pool and nothing else changes in it |
| Roster.EligibleAfterWinner | client/src/pages/BigScreen.jsx:50-56 | applying a WON record removes exactly that participant from the pool and keeps the rest of the pool in order |
| Roster.EligibleAfterDelete | client/src/pages/BigScreen.jsx:62-63 | deleting by id and taking the pool commute |
| Events.ForRoom | server/index.js:90 | the events addressed to a room are exactly the emits naming that room |
| Rooms.Join | server/index.js:129-131 | joining adds the socket to that room and leaves every other room as it was |
| Rooms.Disconnect | server/index.js:139-141 | a disconnected socket is in no room, all other memberships stay, empty rooms are dropped |
| Rooms.Inbox | server/index.js:90 | a socket receives an event iff it was emitted to a room the socket is in |
| Rooms.InboxOfSingleRoom | server/index.js:116 | a socket in exactly one room receives exactly that room's events in order, so nothing from another campaign |
| Rooms.Leave | server/index.js:129-141 | leaving takes the socket out of that room only; no handler of the server does it |
| Rooms.Relaunch | client/src/pages/BigScreen.jsx:39-70 | remounting the screen on another campaign joins the new room and stays in the old one, since the cleanup only removes listeners |
| Rooms.RelaunchLeaving | client/src/pages/BigScreen.jsx:39-70 | with a cleanup that leaves its room, the socket is in the new room and out of the old one |
| Rooms.RelaunchLeavingKeepsOneRoom | client/src/pages/BigScreen.jsx:39-70 | a socket in no room is, after such a relaunch, in exactly the shown campaign's room |
| Rooms.JoinIdempotent | server/index.js:130 | joining twice is joining once |
| Rooms.DisconnectUndoesJoin | server/index.js:129-141 | a join is undone by the same socket's disconnect |
| Server.CreateCampaign | server/index.js:23-33 | succeeds iff the id is new and name and type are present; stores the campaign with prizes or [] and touches no other campaign; a failure is a 500 that changes nothing |
| Server.GetCampaign | server/index.js:36-45 | returns the stored campaign iff the id exists, otherwise 404 |
| Server.UpdateCampaign | server/index.js:55-75 | 404 and no change for an unknown id; otherwise the name changes iff a non-empty one is sent, the prizes iff a list is sent, and nothing else changes |
| Server.CheckIn | server/index.js:78-96 | succeeds iff the id is new, the campaign exists and a name is sent; then appends one CHECKED_IN row with the given campaign, name and phone and emits `participant_joined` with it to that campaign's room only; a failure is a 500 with no change and no emit |
| Server.ListParticipants | server/index.js:99-103 | the body holds exactly the rows whose campaign is the requested one, in table order |
| Server.Win | server/index.js:106-122 | succeeds iff a row has the id; the rows with that id become WON with the given prize and all other rows are unchanged; `winner_selected` with the updated row goes to that row's campaign room; an unknown id gives a 500, no change and no emit |
| Server.TriggerSpin | server/index.js:135-137 | `start_spin` goes to the named room and to no other; there is no HTTP reply and no change |
| Server.MarkWon | server/index.js:110-111 | the UPDATE keeps the row count; rows with the id become WON with the prize, all others are untouched |
| Server.Handle | server/index.js:22-122 | the dashboard's DELETE and reset requests have no route: 404, no change, no emit |
| Server.Lookup | server/index.js:113 | finds a row with the id iff one exists |
| Server.HandlePreservesValid | server/database.js:17 | every request keeps participant ids unique and campaigns stored under their ids |
| Server.DuplicatePhoneAccepted | server/index.js:79-85 | two check-ins with the same phone in the same campaign both succeed and both rows are stored |
| Server.SecondWinOverwrites | server/index.js:110-118 | a second win on the same id succeeds and leaves the second prize recorded |
| Server.WinKeepsIds | server/index.js:110-111 | a win keeps the set of participant ids |
| Server.WinnerIsUpdatedRow | server/index.js:113-116 | with unique ids the broadcast record is the updated form of the row with that id, in the same campaign |
| Server.ListingAfterMarkWon | server/index.js:110-111 | the win UPDATE seen through one campaign's listing is the UPDATE of that listing |
| Server.MarkWonIsReplace | server/index.js:110-116 | on a listing whose row with the id updates to the broadcast record, the UPDATE equals the client's replace-by-id |
| BigScreen.OnParticipantJoined | client/src/pages/BigScreen.jsx:44-48 | the newcomer is appended, earlier entries are unchanged, the banner shows it, nothing else changes |
| BigScreen.OnWinnerSelected | client/src/pages/BigScreen.jsx:50-60 | entries with the winner's id are replaced, others and the length are kept, the winner is shown and spinning stops |
| BigScreen.OnParticipantDeleted | client/src/pages/BigScreen.jsx:62-64 | exactly the entries with the id are removed; the rest keep their order and their number of copies; nothing else changes |
| BigScreen.Loaded | client/src/pages/BigScreen.jsx:22-33 | both fetches settled: the campaign and the listing are installed and nothing else changes |
| BigScreen.SpinBlocked | client/src/pages/BigScreen.jsx:156 | a spin is refused exactly while spinning or when every listed participant has already won |
| BigScreen.CurrentPrize | client/src/pages/BigScreen.jsx:168 | there is a current prize iff a campaign is loaded and the cursor is inside its prize list, and then it is the prize at the cursor |
| BigScreen.HandleSpin | client/src/pages/BigScreen.jsx:103-107 | a blocked spin changes nothing; otherwise spinning starts, the winner is cleared and an animation holding the current pool and prize begins |
| BigScreen.FinishSpin | client/src/pages/BigScreen.jsx:137-149 | a win request is produced iff the captured prize exists; it names the picked participant and the prize's name; the slots show the picked name; spinning is not cleared |
| BigScreen.HandleNextPrize | client/src/pages/BigScreen.jsx:160-166 | the cursor advances only while it is before the last prize, clearing winner and slots; otherwise nothing changes |
| BigScreen.NextPrizeClicked | client/src/pages/BigScreen.jsx:343 | a click on the live overlay: the winner is cleared even at the last prize and the cursor moves by at most one |
| BigScreen.NextPrizeClickedAt | client/src/pages/BigScreen.jsx:315-343 | a click with the handler of the render that saw cursor `seen`: the winner is cleared, and the current cursor moves by one iff `seen` is before the last prize |
| BigScreen.LiveClickIsGuarded | client/src/pages/BigScreen.jsx:343 | on the live overlay the click is the guarded next-prize click |
| BigScreen.StaleClickPassesLastPrize | client/src/pages/BigScreen.jsx:160-166 | from the last-but-one prize, a second click during the overlay's exit puts the cursor past the last prize, where there is no current prize |
| BigScreen.OnEvent | client/src/pages/BigScreen.jsx:44-64 | events touch only the list, the banner, the winner and the spinning flag; `start_spin` has no listener and changes nothing; only `winner_selected` touches winner and spinning, only `participant_joined` the banner |
| BigScreen.Enabled | client/src/pages/BigScreen.jsx:137-343 | loads, events, the banner timer and spin clicks can happen in any state; next-prize exactly while a winner is shown; only a running animation can finish |
| BigScreen.Next | client/src/pages/BigScreen.jsx:22-166 | only a load changes the campaign; only next-prize moves the cursor, by one; only loads and events change the list; a step starts at most one animation |
| BigScreen.InitialValid | client/src/pages/BigScreen.jsx:11-19 | the initial page has no animations and the cursor at 0 |
| BigScreen.NextPreservesValid | client/src/pages/BigScreen.jsx:101-166 | every step keeps each running animation's pool non-empty and free of winners, and the cursor on an existing prize |
| BigScreen.SpinIgnoredIffBlocked | client/src/pages/BigScreen.jsx:155-157 | a spin is a no-op exactly while spinning or with an empty pool |
| BigScreen.SpinPicksEligible | client/src/pages/BigScreen.jsx:138-147 | a spin that is let through and finishes names a listed participant who had not won, and the prize current at spin time; spinning stays on |
| BigScreen.SpinWithoutPrizeStaysSpinning | client/src/pages/BigScreen.jsx:141-149 | with no current prize nothing is sent and the page stays spinning, ignoring further spins |
| BigScreen.CursorNeverPassesLastPrize | client/src/pages/BigScreen.jsx:160-166 | after any number of live next-prize clicks the cursor is at the start plus the clicks, capped at the last prize |
| BigScreen.ReceiveWinner | client/src/pages/BigScreen.jsx:50-56 | receiving one `winner_selected` stops spinning, shows the winner and replaces it in the list |
| JsText.TrimStart | client/src/pages/Dashboard.jsx:126 | the result is a suffix, all dropped characters are white space, and it does not start with white space |
| JsText.TrimEnd | client/src/pages/Dashboard.jsx:126 | the result is a prefix, all dropped characters are white space, and it does not end with white space |
| JsText.Trim | client/src/pages/Dashboard.jsx:126 | the result is a slice of the name that drops only white space at both ends and neither starts nor ends with white space |
| JsText.IsBlank | client/src/pages/Dashboard.jsx:126 | a name trims to '' exactly when all its characters are white space |
| JsText.ParseInt | client/src/pages/Dashboard.jsx:297 | NaN unless a digit follows the leading white space and one optional sign; a number whenever a decimal digit does and no `0x` prefix, and whenever a hexadecimal digit follows `0x`; never positive after `-`, never negative otherwise |
| JsText.ParseIntReadsDigitRun | client/src/pages/Dashboard.jsx:297 | the number read is the value of the longest run of decimal digits after the white space and the sign, or of hexadecimal digits after `0x`, with the sign applied |
| JsText.ParseIntStopsAtNonDigit | client/src/pages/Dashboard.jsx:297 | an integer's numeral followed by text that cannot continue it reads as that integer: "1.5" and "1e3" read as 1 |
| JsText.ParseIntLeadingZero | client/src/pages/Dashboard.jsx:297 | a leading zero does not change the number a digit string reads as |
| JsText.TrimIdempotent | client/src/pages/Dashboard.jsx:126 | trimming twice is trimming once |
| JsText.DigitPrefix | client/src/pages/Dashboard.jsx:297 | the longest prefix made only of digits |
| JsText.ParseIntShowInt | client/src/pages/Dashboard.jsx:297 | `parseInt` reads back every integer's decimal numeral |
| Dashboard.AddPrize | client/src/pages/Dashboard.jsx:93-95 | one blank prize of quantity 1 is appended; earlier entries are unchanged |
| Dashboard.RemovePrize | client/src/pages/Dashboard.jsx:97-101 | only index i is dropped, only when more than one entry exists; a non-empty list stays non-empty |
| Dashboard.ChangePrize | client/src/pages/Dashboard.jsx:103-107 | only the named field of the entry at i changes; other entries and the other field are unchanged |
| Dashboard.QuantityFromInput | client/src/pages/Dashboard.jsx:297 | the result is never 0; an unparseable input and a parsed 0 give 1; any other parsed number is kept |
| Dashboard.ValidPrizes | client/src/pages/Dashboard.jsx:126 | exactly the prizes with a non-blank trimmed name, with their multiplicities, in editor order |
| Dashboard.OpenEdit | client/src/pages/Dashboard.jsx:109-114 | the modal shows the campaign's name and prizes, or one blank prize if it has none |
| Dashboard.CloseModal | client/src/pages/Dashboard.jsx:116-122 | every editor field returns to its initial value |
| Dashboard.SaveRequest | client/src/pages/Dashboard.jsx:124-142 | a PUT to the edited campaign's id iff editing, otherwise a POST under the fresh id that also carries the type; both send the typed name and exactly the prizes with a non-blank name, in editor order, as often as in the editor |
| Dashboard.AfterSave | client/src/pages/Dashboard.jsx:143-147 | a successful save closes and resets the editor; a failed one leaves it as it was |
| Dashboard.OpenNew | client/src/pages/Dashboard.jsx:160 | "+ New Campaign" shows the modal and changes no field |
| Dashboard.OpenPanel | client/src/pages/Dashboard.jsx:22-24 | the panel opens on the campaign and keeps its list until the fetch settles |
| Dashboard.PanelLoaded | client/src/pages/Dashboard.jsx:26-27 | the fetched listing replaces the panel's list and nothing else changes |
| Dashboard.EditorNext | client/src/pages/Dashboard.jsx:93-147 | prize actions change only the prize list; renaming and retyping leave the prizes and the modal alone; closing and a successful save reset the editor; a failed save changes nothing |
| Dashboard.EditorKeepsAPrize | client/src/pages/Dashboard.jsx:93-122 | no editor action empties the prize list |
| Dashboard.RemoveUndoesAdd | client/src/pages/Dashboard.jsx:93-101 | removing the just-added blank prize restores the list |
| Dashboard.ChangeUndoesChange | client/src/pages/Dashboard.jsx:103-107 | writing the old field value back restores the list |
| Dashboard.ValidPrizesIdempotent | client/src/pages/Dashboard.jsx:126 | filtering the saved prizes again removes nothing |
| Dashboard.QuantityReadsLeadingInteger | client/src/pages/Dashboard.jsx:297 | a numeral followed by a fraction or an exponent gives its integer part, and 1 when that is 0 ("0.5") |
| Dashboard.QuantityOfLeadingZeros | client/src/pages/Dashboard.jsx:297 | leading zeros give the same quantity: "00" gives 1 |
| Dashboard.QuantityReadsBack | client/src/pages/Dashboard.jsx:297 | a displayed non-zero integer reads back as itself; "0" and "" become 1 |
| Dashboard.DeleteFromPanel | client/src/pages/Dashboard.jsx:34-43 | only after confirmation and a successful DELETE are exactly the entries with the id removed, keeping order; otherwise the panel is unchanged |
| Dashboard.ClosePanel | client/src/pages/Dashboard.jsx:45-49 | the panel closes with no campaign and an empty list |
| Dashboard.CloseUndoesOpen | client/src/pages/Dashboard.jsx:18-49 | closing after an open, with or without a load, returns the panel to its initial state |
| CheckInForm.Submit | client/src/pages/CheckIn.jsx:15 | submitting moves to SUBMITTING |
| CheckInForm.SubmitDisabled | client/src/pages/CheckIn.jsx:97 | the button is disabled exactly in the state a submit puts the form in |
| CheckInForm.RequestFor | client/src/pages/CheckIn.jsx:17-21 | the form posts the campaign of its URL, the name and the phone, all present, under the server's fresh id |
| CheckInForm.ResultOf | client/src/pages/CheckIn.jsx:22-30 | a post is accepted iff the server answered with a success; no answer this server gives carries a 409 |
| CheckInForm.Settle | client/src/pages/CheckIn.jsx:16-31 | SUCCESS iff the post succeeded, ERROR iff it failed; a 409 gives the phone message and any other failure the generic one |
| CheckInForm.SubmissionSettles | client/src/pages/CheckIn.jsx:97 | the button is disabled while submitting and enabled again once the post settles |
| CheckInForm.NeverPhoneTaken | client/src/pages/CheckIn.jsx:25-28 | against this server the form succeeds iff the id is new and the campaign exists, and a failure always shows the generic message |
| Sync.CheckInKeepsInStep | server/index.js:84-90 | a screen showing the listing of its campaign still shows it after a check-in and the events for its room |
| Sync.WinKeepsInStep | server/index.js:110-116 | the same after a win request |
| Sync.HandleKeepsInStep | server/index.js:22-137 | the same after any request |
| Sync.ViewerInOneRoomStaysInStep | client/src/pages/BigScreen.jsx:42-64 | the same for a socket that joined only its campaign's room |
| Sync.RelaunchedScreenTakesOtherCampaign | client/src/pages/BigScreen.jsx:39-70 | as written: a screen for B on a socket relaunched from A appends a check-in to A and leaves step with the server's listing of B |
| Sync.RelaunchedScreenStaysInStep | client/src/pages/BigScreen.jsx:39-70 | with a cleanup that leaves its room, a relaunched screen stays in step through every request |
| Sync.WinOfListed | server/index.js:106-118 | a win request for a listed participant succeeds and emits one `winner_selected` to that campaign's room |
| Sync.DrawRoundTrip | client/src/pages/BigScreen.jsx:137-147 | one draw: the request succeeds; after the broadcast the screen stops spinning, shows the winner with the current prize, loses exactly that participant from its pool and still matches the server |
| Sync.NoServerSideDrawLock | client/src/pages/BigScreen.jsx:155-157 | two screens in step with the server can both draw and the server accepts both win requests |
| Sync.PanelShowsListing | client/src/pages/Dashboard.jsx:22-43 | after open and fetch the panel shows exactly the server's listing of its campaign, and still does after a delete, which the server answers with 404 |
| Sync.DeleteNeverApplies | client/src/pages/Dashboard.jsx:37-38 | the server answers the delete with 404 and no change, so the panel keeps its list |
| Sync.SaveCreatesCampaign | client/src/pages/Dashboard.jsx:135-141 | saving a new campaign stores exactly it under the fresh id, with the typed name and type and the non-blank prizes in order; nothing else changes |
| Sync.SaveStoresValidPrizes | client/src/pages/Dashboard.jsx:124-134 | saving an edited campaign stores exactly the non-blank prizes in order, and the name unless it is empty |

## Findings

| source | as written | input that shows it | evidently intended | confidence | as-written member | corrected member |
|---|---|---|---|---|---|---|
| client/src/pages/BigScreen.jsx:160-166 | `handleNextPrize` tests the cursor of the render that made the handler but increments with `prev => prev + 1`. The winner overlay stays clickable through its exit animation (lines 315-320) with the handlers of its last render. | A campaign with 2 prizes, the cursor at 0 and a winner shown. Click "next" and click again before the overlay has shrunk away. Both clicks pass the guard `0 < 1`, so the cursor reaches 2 and there is no current prize. The next spin then never ends. | The cursor never passes the last prize: guard and increment read the same cursor | not executed; medium, it depends on a click landing during the exit animation | BigScreen.StaleClickPassesLastPrize | BigScreen.CursorNeverPassesLastPrize |
| client/src/pages/BigScreen.jsx:39-70 | The screen emits `join_campaign` on every mount and its cleanup only removes listeners; the server has no leave handler (server/index.js:129-141). All routes share one socket (client/src/App.jsx:10-21). | Open the screen of campaign A from the dashboard, go back, open the screen of B. The socket is in rooms A and B. A check-in to A is appended to B's list, B's draw can pick it, and A's `winner_selected` stops B's spin. | A screen receives only its own campaign's events: the cleanup leaves the room it joined | not executed; high for in-app navigation, assuming the provider holds one socket for the whole app | Sync.RelaunchedScreenTakesOtherCampaign | Sync.RelaunchedScreenStaysInStep |

## Left out

- `GET /api/campaigns` (server/index.js:48-52): the list is ordered by `created_at`, a clock value that the model does not carry.
- The `code` and `created_at` columns: no handler writes them.
- JSON (de)serialisation of `prizes`, Express and socket.io plumbing, and better-sqlite3: the model treats them as exact. Request fields are strings or absent. Other JSON types (a number sent as a name) are not modelled. The room named after each socket's own id is not modelled either.
- The spin animation: the random slot names, the speed tiers and the timeouts (client/src/pages/BigScreen.jsx:109-135), confetti and all rendering. The 3-second timer that clears the join banner is only a step (`JoinBannerExpired`), with no time attached.
- `Math.random`: the final pick is an injected index in range.
- Failed fetches on the big screen and in the players panel only log or alert. The model represents them as the absence of a `Load` or `PanelLoaded` step.
- The client side of `handleDeleteCampaign` and `handleResetWheel` (client/src/pages/Dashboard.jsx:51-76) is only confirms, alerts and refetches. The server side of those requests is modelled: no route, 404.
- `handlePrizeChange` copies the list shallowly, so an edit also mutates the prize object that the campaign list holds. The model uses values and does not show this aliasing.
- JsText.ParseInt: numbers beyond 2^53 lose precision in JavaScript. The model reads them exactly.
- BigScreen.HandleNextPrize: the page's step relation runs it only from a live click on a shown winner. The stale click on the exiting overlay is modelled apart, as `BigScreen.NextPrizeClickedAt` (see Findings), and is not a step.
- BigScreen.CursorNeverPassesLastPrize: holds for live clicks only. A stale click during the overlay's exit can pass the last prize (`BigScreen.StaleClickPassesLastPrize`).
- BigScreen.NextPreservesValid: assumes that a reload never brings a prize list shorter than the current cursor. The page fetches on mount and again whenever the route's id changes (client/src/pages/BigScreen.jsx:22-37), and the cursor is not reset then. The assumption excludes that path: a new campaign with fewer prizes than the cursor breaks the invariant. It covers the steps of `BigScreen.Next` only. The stale click on the exiting winner overlay is not such a step. With that click the cursor can pass the last prize and the cursor invariant fails (`BigScreen.StaleClickPassesLastPrize`).
- Sync.ViewerInOneRoomStaysInStep: requires that the socket is in one room only. After in-app navigation between two screens that premise fails, because the page never leaves its room (see Findings: `Sync.RelaunchedScreenTakesOtherCampaign`). client/src/context/SocketContext.jsx is not part of this model, so "one socket for the whole app" rests on the provider wrapping every route in client/src/App.jsx.
- client/src/pages/QRCodePage.jsx and client/src/App.jsx: they hold a QR wrapper and a route table, with no logic to model.

=== FILE: big_screen.dfy ===
/** The big-screen page: the participant list it keeps in step with the
    server's events, the spin guard, the final pick and the prize cursor. */
module BigScreen {
  import opened Records
  import opened Events
  import Lists
  import Roster

  /** What a spin animation captured when it began: the eligible pool and the
      current prize of that render. The final pick reads these, however the
      page state has moved on since. */
  datatype PendingDraw = PendingDraw(pool: seq<Participant>, prize: Option<Prize>)

  /** The page state. `pending` holds the spin animations still running: a
      second spin can start while an earlier animation is still running once
      a `winner_selected` has cleared `isSpinning`. */
  datatype Screen = Screen(
    campaign: Option<Campaign>,
    participants: seq<Participant>,
    isSpinning: bool,
    winner: Option<Participant>,
    newJoin: Option<Participant>,
    prizeIndex: nat,
    slots: seq<string>,
    pending: seq<PendingDraw>)

  /** The three slots before any spin. */
  const Unknown: seq<string> := ["?", "?", "?"]

  function Initial(): Screen {
    Screen(None, [], false, None, None, 0, Unknown, [])
  }

  /** Both initial fetches succeeded. */
  function Loaded(s: Screen, c: Campaign, ps: seq<Participant>): (r: Screen)
    ensures r.campaign == Some(c) && r.participants == ps
    ensures r.(campaign := s.campaign, participants := s.participants) == s
  {
    s.(campaign := Some(c), participants := ps)
  }

  /** `participant_joined`: the newcomer goes to the end and is announced. */
  function OnParticipantJoined(s: Screen, p: Participant): (r: Screen)
    ensures |r.participants| == |s.participants| + 1
    ensures r.participants[..|s.participants|] == s.participants && r.participants[|s.participants|] == p
    ensures r.newJoin == Some(p)
    ensures r.(participants := s.participants, newJoin := s.newJoin) == s
  {
    s.(participants := s.participants + [p], newJoin := Some(p))
  }

  /** `winner_selected`: the record replaces its namesake by id, becomes the
      shown winner, and the spinning flag drops. */
  function OnWinnerSelected(s: Screen, p: Participant): (r: Screen)
    ensures |r.participants| == |s.participants|
    ensures forall i :: 0 <= i < |s.participants| && s.participants[i].id != p.id ==> r.participants[i] == s.participants[i]
    ensures forall i :: 0 <= i < |s.participants| && s.participants[i].id == p.id ==> r.participants[i] == p
    ensures r.winner == Some(p) && !r.isSpinning
    ensures r.(participants := s.participants, winner := s.winner, isSpinning := s.isSpinning) == s
  {
    s.(participants := Roster.ReplaceById(s.participants, p), winner := Some(p), isSpinning := false)
  }

  /** `participant_deleted`: every entry with that id goes, the rest stay in order. */
  function OnParticipantDeleted(s: Screen, id: string): (r: Screen)
    ensures forall p :: p in r.participants <==> p in s.participants && p.id != id
    ensures forall p :: multiset(r.participants)[p] == if p.id != id then multiset(s.participants)[p] else 0
    ensures Lists.IsSubsequence(r.participants, s.participants)
    ensures r.(participants := s.participants) == s
  {
    s.(participants := Roster.WithoutId(s.participants, id))
  }

  /** The page's socket listeners; it has none for `start_spin`. */
  function OnEvent(s: Screen, e: Event): (r: Screen)
    ensures e.StartSpin? ==> r == s
    ensures r.(participants := s.participants, newJoin := s.newJoin, winner := s.winner, isSpinning := s.isSpinning) == s
    ensures !e.WinnerSelected? ==> r.winner == s.winner && r.isSpinning == s.isSpinning
    ensures !e.ParticipantJoined? ==> r.newJoin == s.newJoin
  {
    match e
    case ParticipantJoined(p) => OnParticipantJoined(s, p)
    case WinnerSelected(p) => OnWinnerSelected(s, p)
    case ParticipantDeleted(id) => OnParticipantDeleted(s, id)
    case StartSpin(_) => s
  }

  /** A run of received events, in order. */
  function ApplyEvents(s: Screen, es: seq<Event>): Screen
    decreases |es|
  {
    if |es| == 0 then s else ApplyEvents(OnEvent(s, es[0]), es[1..])
  }

  lemma ApplyOne(s: Screen, e: Event)
    ensures ApplyEvents(s, [e]) == OnEvent(s, e)
  {
  }

  lemma ReceiveWinner(s: Screen, p: Participant)
    ensures var r := ApplyEvents(s, [WinnerSelected(p)]);
      !r.isSpinning && r.winner == Some(p) && r.participants == Roster.ReplaceById(s.participants, p)
  {
    ApplyOne(s, WinnerSelected(p));
  }

  /** `campaign?.prizes?.[currentPrizeIndex]`. */
  function CurrentPrize(s: Screen): (r: Option<Prize>)
    ensures r.Some? <==> s.campaign.Some? && s.prizeIndex < |s.campaign.value.prizes|
    ensures r.Some? ==> r.value == s.campaign.value.prizes[s.prizeIndex]
  {
    if s.campaign.Some? && s.prizeIndex < |s.campaign.value.prizes|
    then Some(s.campaign.value.prizes[s.prizeIndex]) else None
  }

  /** The spin button is disabled, and `handleSpin` returns at once. */
  function SpinBlocked(s: Screen): (r: bool)
    ensures r <==> s.isSpinning || forall p :: p in s.participants ==> p.status == Won
  {
    var pool := Roster.Eligible(s.participants);
    assert |pool| > 0 ==> pool[0] in pool;
    s.isSpinning || |pool| == 0
  }

  /** `handleSpin`: unless blocked, the page starts spinning, clears the
      shown winner and starts an animation holding the current pool and prize. */
  function HandleSpin(s: Screen): (r: Screen)
    ensures SpinBlocked(s) ==> r == s
    ensures !SpinBlocked(s) ==>
      && r.isSpinning && r.winner.None?
      && r.pending == s.pending + [PendingDraw(Roster.Eligible(s.participants), CurrentPrize(s))]
      && r.(isSpinning := s.isSpinning, winner := s.winner, pending := s.pending) == s
  {
    if SpinBlocked(s) then s
    else s.(isSpinning := true, winner := None,
            pending := s.pending + [PendingDraw(Roster.Eligible(s.participants), CurrentPrize(s))])
  }

  /** The win request the page posts: `/participants/<id>/win` with the prize name. */
  datatype WinRequest = WinRequest(participantId: string, prize: string)

  /** The end of animation `j`: `k` is `Math.floor(Math.random() * pool.length)`,
      so it lies in [0, |pool|). A request goes out only when the captured
      prize exists. Nothing here clears `isSpinning`: only a later
      `winner_selected` does. */
  function FinishSpin(s: Screen, j: nat, k: nat): (r: (Screen, Option<WinRequest>))
    requires j < |s.pending| && k < |s.pending[j].pool|
    ensures var d := s.pending[j];
      && r.0.pending == s.pending[..j] + s.pending[j + 1..]
      && r.0.isSpinning == s.isSpinning
      && (r.1.Some? <==> d.prize.Some?)
      && (r.1.Some? ==> r.1.value == WinRequest(d.pool[k].id, d.prize.value.name)
                        && r.0.slots == [d.pool[k].name, d.pool[k].name, d.pool[k].name])
      && (r.1.None? ==> r.0.slots == s.slots)
      && r.0.(pending := s.pending, slots := s.slots) == s
  {
    var d := s.pending[j];
    var s' := s.(pending := s.pending[..j] + s.pending[j + 1..]);
    if d.prize.Some? then
      var n := d.pool[k].name;
      (s'.(slots := [n, n, n]), Some(WinRequest(d.pool[k].id, d.prize.value.name)))
    else (s', None)
  }

  /** `handleNextPrize`: the cursor moves on only while it is before the last
      prize; moving clears the winner and the slots. */
  function HandleNextPrize(s: Screen): (r: Screen)
    ensures var advance := s.campaign.Some? && s.prizeIndex < |s.campaign.value.prizes| - 1;
      && (advance ==> r == s.(prizeIndex := s.prizeIndex + 1, winner := None, slots := Unknown))
      && (!advance ==> r == s)
    ensures r.prizeIndex == s.prizeIndex || (r.campaign.Some? && r.prizeIndex < |r.campaign.value.prizes|)
  {
    if s.campaign.Some? && s.prizeIndex < |s.campaign.value.prizes| - 1
    then s.(prizeIndex := s.prizeIndex + 1, winner := None, slots := Unknown)
    else s
  }

  /** The "next prize" button clears the winner first, even on the last prize. */
  function NextPrizeClicked(s: Screen): (r: Screen)
    ensures r.winner.None?
    ensures r.prizeIndex == s.prizeIndex || r.prizeIndex == s.prizeIndex + 1
  {
    HandleNextPrize(s.(winner := None))
  }

  /** The "next prize" button as the page runs it. The button lives in the
      winner overlay, which keeps playing its exit animation after
      `setWinner(null)` and stays clickable meanwhile, with the handlers of
      its last render. Such a handler tests the cursor `seen` of that render
      but moves the current one, since the update is `prev => prev + 1`. A
      click on the live overlay is the case `seen == s.prizeIndex`. */
  function NextPrizeClickedAt(s: Screen, seen: nat): (r: Screen)
    ensures r.winner.None?
    ensures r.campaign == s.campaign
    ensures r.prizeIndex == s.prizeIndex || r.prizeIndex == s.prizeIndex + 1
    ensures r.prizeIndex == s.prizeIndex + 1 <==> s.campaign.Some? && seen < |s.campaign.value.prizes| - 1
  {
    var t := s.(winner := None);
    if t.campaign.Some? && seen < |t.campaign.value.prizes| - 1
    then t.(prizeIndex := t.prizeIndex + 1, slots := Unknown)
    else t
  }

  /** On the live overlay the render's cursor is the current one, and the
      click is the guarded `NextPrizeClicked`. */
  lemma LiveClickIsGuarded(s: Screen)
    ensures NextPrizeClickedAt(s, s.prizeIndex) == NextPrizeClicked(s)
  {
  }

  /** A second click while the overlay exits passes the stale guard: from the
      last-but-one prize, two clicks put the cursor one past the last prize,
      where there is no current prize (so the next spin never ends). */
  lemma StaleClickPassesLastPrize(s: Screen)
    requires s.campaign.Some? && |s.campaign.value.prizes| >= 2
    requires s.prizeIndex == |s.campaign.value.prizes| - 2
    ensures var s2 := NextPrizeClickedAt(NextPrizeClickedAt(s, s.prizeIndex), s.prizeIndex);
      && s2.prizeIndex == |s.campaign.value.prizes|
      && CurrentPrize(s2).None?
      && !CursorInRange(s2)
  {
  }

  /** Everything that can happen to the page. */
  datatype Step =
    | Load(c: Campaign, ps: seq<Participant>)
    | Receive(e: Event)
    | JoinBannerExpired
    | SpinClicked
    | SpinFinished(j: nat, k: nat)
    | NextPrize

  /** A finished animation is one that is running; the next-prize button
      exists only while a winner is shown. */
  function Enabled(s: Screen, step: Step): (r: bool)
    ensures !step.SpinFinished? && !step.NextPrize? ==> r
    ensures step.NextPrize? ==> (r <==> s.winner.Some?)
    ensures step.SpinFinished? && r ==> step.j < |s.pending|
  {
    && (step.SpinFinished? ==> step.j < |s.pending| && step.k < |s.pending[step.j].pool|)
    && (step.NextPrize? ==> s.winner.Some?)
  }

  function Next(s: Screen, step: Step): (r: Screen)
    requires Enabled(s, step)
    ensures !step.Load? ==> r.campaign == s.campaign
    ensures r.prizeIndex == s.prizeIndex || (step.NextPrize? && r.prizeIndex == s.prizeIndex + 1)
    ensures !step.Load? && !step.Receive? ==> r.participants == s.participants
    ensures |r.pending| <= |s.pending| + 1
  {
    match step
    case Load(c, ps) => Loaded(s, c, ps)
    case Receive(e) => OnEvent(s, e)
    case JoinBannerExpired => s.(newJoin := None)
    case SpinClicked => HandleSpin(s)
    case SpinFinished(j, k) => FinishSpin(s, j, k).0
    case NextPrize => NextPrizeClicked(s)
  }

  /** Every running animation holds a non-empty pool of non-winners. */
  ghost predicate PoolsEligible(s: Screen) {
    forall d :: d in s.pending ==> |d.pool| > 0 && forall p :: p in d.pool ==> p.status != Won
  }

  /** The cursor is at the first prize or at an existing prize. */
  ghost predicate CursorInRange(s: Screen) {
    s.prizeIndex == 0 || (s.campaign.Some? && s.prizeIndex < |s.campaign.value.prizes|)
  }

  ghost predicate Valid(s: Screen) {
    PoolsEligible(s) && CursorInRange(s)
  }

  lemma InitialValid()
    ensures Valid(Initial())
  {
  }

  /** Every step keeps the running pools eligible and the cursor on a prize,
      provided a reload does not bring a prize list too short for the cursor. */
  lemma NextPreservesValid(s: Screen, step: Step)
    requires Valid(s) && Enabled(s, step)
    requires step.Load? ==> s.prizeIndex == 0 || s.prizeIndex < |step.c.prizes|
    ensures Valid(Next(s, step))
  {
    match step
    case Receive(e) =>
      assert Next(s, step).pending == s.pending;
    case SpinClicked =>
      if !SpinBlocked(s) {
        var d := PendingDraw(Roster.Eligible(s.participants), CurrentPrize(s));
        assert forall x :: x in Next(s, step).pending ==> x in s.pending || x == d;
      }
    case SpinFinished(j, k) =>
      var r := Next(s, step).pending;
      assert r == s.pending[..j] + s.pending[j + 1..];
      assert forall x :: x in r ==> x in s.pending;
    case _ =>
  }

  /** The spin guard is exactly the no-op condition of `handleSpin`. */
  lemma SpinIgnoredIffBlocked(s: Screen)
    ensures HandleSpin(s) == s <==> SpinBlocked(s)
  {
  }

  /** A spin that is let through and then finishes with any index in range
      asks to mark a participant of the list who had not won yet, and names
      the prize that was current when the spin began. */
  lemma {:induction false} SpinPicksEligible(s: Screen, k: nat)
    requires !SpinBlocked(s) && k < |Roster.Eligible(s.participants)|
    ensures var (s', req) := FinishSpin(HandleSpin(s), |s.pending|, k);
      && (req.Some? <==> CurrentPrize(s).Some?)
      && (req.Some? ==>
            && req.value.prize == CurrentPrize(s).value.name
            && exists p :: p in s.participants && p.status != Won && p.id == req.value.participantId)
      && s'.isSpinning
      && s'.pending == s.pending
      && s'.participants == s.participants
  {
    var s1 := HandleSpin(s);
    var d := s1.pending[|s.pending|];
    assert d == PendingDraw(Roster.Eligible(s.participants), CurrentPrize(s));
    assert d.pool[k] in Roster.Eligible(s.participants);
    assert s1.pending[..|s.pending|] == s.pending;
  }

  /** With no current prize (no prizes at all, or none loaded) a spin sends
      nothing and leaves the page spinning, so every later spin is ignored
      until some `winner_selected` arrives. */
  lemma SpinWithoutPrizeStaysSpinning(s: Screen, k: nat)
    requires !SpinBlocked(s) && CurrentPrize(s).None? && k < |Roster.Eligible(s.participants)|
    ensures var (s', req) := FinishSpin(HandleSpin(s), |s.pending|, k);
      req.None? && s'.isSpinning && HandleSpin(s') == s'
  {
  }

  /** Next-prize never moves the cursor past the last prize. */
  lemma {:induction false} CursorNeverPassesLastPrize(s: Screen, n: nat)
    requires s.campaign.Some? && s.prizeIndex < |s.campaign.value.prizes|
    ensures var r := Repeat(s, n); r.campaign == s.campaign && r.prizeIndex < |s.campaign.value.prizes|
    ensures var r := Repeat(s, n);
      r.prizeIndex == if s.prizeIndex + n < |s.campaign.value.prizes| then s.prizeIndex + n
                      else |s.campaign.value.prizes| - 1
    decreases n
  {
    if n != 0 {
      CursorNeverPassesLastPrize(NextPrizeClicked(s), n - 1);
    }
  }

  /** `n` clicks of the next-prize button. */
  function Repeat(s: Screen, n: nat): Screen
    decreases n
  {
    if n == 0 then s else Repeat(NextPrizeClicked(s), n - 1)
  }
}

=== FILE: check_in.dfy ===
/** The attendee check-in form: IDLE -> SUBMITTING -> SUCCESS or ERROR. */
module CheckInForm {
  import opened Records
  import Server
  import Roster

  datatype FormStatus = Idle | Submitting | Success | Failed

  /** `status` and the `error` text shown under the form in the ERROR state. */
  datatype Form = Form(status: FormStatus, error: string)

  /** How the POST settled: a 2xx, or a failure with the HTTP status of the
      response if there was one (None for a network error). */
  datatype PostResult = Accepted | Rejected(httpStatus: Option<int>)

  const PhoneTakenMessage: string := "Số điện thoại này đã được sử dụng"
  const GenericMessage: string := "Failed to check in. Please try again."

  function Initial(): Form {
    Form(Idle, "")
  }

  /** The first thing `handleSubmit` does. */
  function Submit(f: Form): (r: Form)
    ensures r.status == Submitting && r.error == f.error
  {
    f.(status := Submitting)
  }

  /** The end of `handleSubmit`: SUCCESS on a 2xx; otherwise ERROR with the
      phone message for a 409 and the generic one for anything else. */
  function Settle(f: Form, result: PostResult): (r: Form)
    ensures r.status == Success <==> result.Accepted?
    ensures r.status == Failed <==> result.Rejected?
    ensures result.Accepted? ==> r.error == f.error
    ensures result.Rejected? ==>
      r.error == (if result.httpStatus == Some(409) then PhoneTakenMessage else GenericMessage)
  {
    match result
    case Accepted => f.(status := Success)
    case Rejected(code) =>
      Form(Failed, if code == Some(409) then PhoneTakenMessage else GenericMessage)
  }

  /** The submit button's `disabled` attribute. */
  function SubmitDisabled(f: Form): (r: bool)
    ensures r <==> Submit(f) == f
  {
    f.status == Submitting
  }

  /** The request the form posts for the campaign in the URL; the inputs are
      always sent, as strings (an empty phone is sent as ""). */
  function RequestFor(freshId: string, campaignId: string, name: string, phone: string): (r: Server.Request)
    ensures r.PostParticipant? && r.participantId == freshId
    ensures r.owner == Some(campaignId) && r.participantName == Some(name) && r.phone == Some(phone)
  {
    Server.PostParticipant(freshId, Some(campaignId), Some(name), Some(phone))
  }

  /** How axios reports each server response. */
  function ResultOf(response: Server.Response): (r: PostResult)
    ensures r.Accepted? <==> response.Ok?
    ensures r.Rejected? ==> r.httpStatus != Some(409)
  {
    match response
    case Ok(_) => Accepted
    case NotFound => Rejected(Some(404))
    case ServerError => Rejected(Some(500))
    case NoReply => Rejected(None)
  }

  /** A submission ends SUCCESS or ERROR, and the button is enabled again;
      while it is in flight the button is disabled. */
  lemma SubmissionSettles(f: Form, result: PostResult)
    ensures SubmitDisabled(Submit(f))
    ensures var r := Settle(Submit(f), result);
      !SubmitDisabled(r) && (r.status == Success || r.status == Failed)
  {
  }

  /** The server never answers 409, so against it the phone message never
      appears: a refused check-in always shows the generic message. */
  lemma NeverPhoneTaken(st: Server.Store, f: Form, freshId: string, campaignId: string, name: string, phone: string)
    ensures var reply := Server.Handle(st, RequestFor(freshId, campaignId, name, phone));
      var r := Settle(Submit(f), ResultOf(reply.response));
      && (r.status == Success <==> freshId !in Roster.Ids(st.participants) && campaignId in st.campaigns)
      && (r.status == Failed ==> r.error == GenericMessage)
  {
  }
}

=== FILE: dashboard.dfy ===
/** The organiser dashboard: the campaign editor's prize list, the request a
    save sends, and the participant list of the "players" panel. */
module Dashboard {
  import opened Records
  import Lists
  import Roster
  import JsText
  import Server

  /** `{ name: '', quantity: 1 }`, the row "+ Add prize" appends. */
  const BlankPrize: Prize := Prize("", 1)

  /** The editor's prize list when it holds nothing else. */
  const DefaultPrizes: seq<Prize> := [BlankPrize]

  /** `handleAddPrize`. */
  function AddPrize(ps: seq<Prize>): (r: seq<Prize>)
    ensures |r| == |ps| + 1 && r[..|ps|] == ps && r[|ps|] == BlankPrize
  {
    ps + [BlankPrize]
  }

  /** `handleRemovePrize`: drops the entry at `i`, but only while there is more
      than one entry; an index outside the list drops nothing. */
  function RemovePrize(ps: seq<Prize>, i: int): (r: seq<Prize>)
    ensures |ps| > 1 && 0 <= i < |ps| ==> |r| == |ps| - 1 && r[..i] == ps[..i] && r[i..] == ps[i + 1..]
    ensures !(|ps| > 1 && 0 <= i < |ps|) ==> r == ps
    ensures |ps| >= 1 ==> |r| >= 1
  {
    if |ps| > 1 && 0 <= i < |ps| then ps[..i] + ps[i + 1..] else ps
  }

  /** The two fields the editor writes. */
  datatype PrizeEdit = SetName(name: string) | SetQuantity(quantity: int)

  /** `handlePrizeChange`: one field of one entry. The index comes from the
      rendered rows, so it is always in range. */
  function ChangePrize(ps: seq<Prize>, i: nat, edit: PrizeEdit): (r: seq<Prize>)
    requires i < |ps|
    ensures |r| == |ps|
    ensures forall j :: 0 <= j < |ps| && j != i ==> r[j] == ps[j]
    ensures edit.SetName? ==> r[i] == ps[i].(name := edit.name)
    ensures edit.SetQuantity? ==> r[i] == ps[i].(quantity := edit.quantity)
  {
    var p := ps[i];
    ps[i := match edit
            case SetName(n) => p.(name := n)
            case SetQuantity(q) => p.(quantity := q)]
  }

  /** The quantity input's handler: `parseInt(value) || 1`. NaN and 0 are
      falsy and become 1; any other number, negative ones included, is kept. */
  function QuantityFromInput(text: string): (r: int)
    ensures r != 0
    ensures JsText.ParseInt(text).None? ==> r == 1
    ensures JsText.ParseInt(text) == Some(0) ==> r == 1
    ensures JsText.ParseInt(text).Some? && JsText.ParseInt(text).value != 0 ==> r == JsText.ParseInt(text).value
  {
    match JsText.ParseInt(text)
    case None => 1
    case Some(v) => if v == 0 then 1 else v
  }

  /** The prizes a save sends: those whose name is not blank after trimming,
      in editor order. */
  function ValidPrizes(ps: seq<Prize>): (r: seq<Prize>)
    ensures forall p :: p in r <==> p in ps && !JsText.IsBlank(p.name)
    ensures Lists.IsSubsequence(r, ps)
    ensures forall p :: multiset(r)[p] == if JsText.IsBlank(p.name) then 0 else multiset(ps)[p]
  {
    Lists.Keep(ps, HasName)
  }

  predicate HasName(p: Prize) {
    !JsText.IsBlank(p.name)
  }

  /** The campaign modal: whether it is shown, the campaign being edited (none
      when creating), and the form fields. */
  datatype Editor = Editor(show: bool, editing: Option<Campaign>, name: string, kind: string, prizes: seq<Prize>)

  function InitialEditor(): Editor {
    Editor(false, None, "", "OFFLINE", DefaultPrizes)
  }

  /** "+ New Campaign" only shows the modal; it resets nothing. */
  function OpenNew(e: Editor): (r: Editor)
    ensures r.show && r.(show := e.show) == e
  {
    e.(show := true)
  }

  /** `openEditModal`: the campaign's name and prizes, or the single blank
      prize when the campaign has none. */
  function OpenEdit(e: Editor, c: Campaign): (r: Editor)
    ensures r.show && r.editing == Some(c) && r.name == c.name && r.kind == e.kind
    ensures r.prizes == if |c.prizes| > 0 then c.prizes else DefaultPrizes
  {
    e.(show := true, editing := Some(c), name := c.name,
       prizes := if |c.prizes| > 0 then c.prizes else DefaultPrizes)
  }

  /** `closeModal`: every field back to its initial value. */
  function CloseModal(e: Editor): (r: Editor)
    ensures r == InitialEditor()
  {
    Editor(false, None, "", "OFFLINE", DefaultPrizes)
  }

  /** The prizes a save sends for the editor's list `ps`: the entries with a
      non-blank name, in editor order, each as often as in the editor. */
  ghost predicate SendsPrizesOf(sent: seq<Prize>, ps: seq<Prize>) {
    && Lists.IsSubsequence(sent, ps)
    && forall p :: multiset(sent)[p] == if JsText.IsBlank(p.name) then 0 else multiset(ps)[p]
  }

  /** What `saveCampaign` sends: a PUT of the name and the valid prizes when
      editing, otherwise a POST that also carries the type. */
  function SaveRequest(e: Editor, freshId: string): (r: Server.Request)
    ensures r.PutCampaign? <==> e.editing.Some?
    ensures r.PostCampaign? <==> e.editing.None?
    ensures r.PutCampaign? ==>
      && r.id == e.editing.value.id && r.newName == Some(e.name)
      && r.newPrizes.Some? && SendsPrizesOf(r.newPrizes.value, e.prizes)
    ensures r.PostCampaign? ==>
      && r.freshId == freshId && r.name == Some(e.name) && r.kind == Some(e.kind)
      && r.prizes.Some? && SendsPrizesOf(r.prizes.value, e.prizes)
  {
    match e.editing
    case Some(c) => Server.PutCampaign(c.id, Some(e.name), Some(ValidPrizes(e.prizes)))
    case None => Server.PostCampaign(freshId, Some(e.name), Some(e.kind), Some(ValidPrizes(e.prizes)))
  }

  /** After the save settles: the modal closes on success and stays as it
      was on failure. */
  function AfterSave(e: Editor, succeeded: bool): (r: Editor)
    ensures succeeded ==> r == InitialEditor()
    ensures !succeeded ==> r == e
  {
    if succeeded then CloseModal(e) else e
  }

  /** The editor actions. */
  datatype EditorStep =
    | NewCampaign
    | Edit(c: Campaign)
    | Close
    | Add
    | Remove(at: int)
    | Change(i: nat, edit: PrizeEdit)
    | Rename(name: string)
    | SetKind(kind: string)
    | SaveSettled(succeeded: bool)

  function EditorNext(e: Editor, step: EditorStep): (r: Editor)
    requires step.Change? ==> step.i < |e.prizes|
    ensures (step.Add? || step.Remove? || step.Change?) ==> r.(prizes := e.prizes) == e
    ensures (step.Rename? || step.SetKind?) ==> r.prizes == e.prizes && r.show == e.show && r.editing == e.editing
    ensures step.Close? || (step.SaveSettled? && step.succeeded) ==> r == InitialEditor()
    ensures step.SaveSettled? && !step.succeeded ==> r == e
  {
    match step
    case NewCampaign => OpenNew(e)
    case Edit(c) => OpenEdit(e, c)
    case Close => CloseModal(e)
    case Add => e.(prizes := AddPrize(e.prizes))
    case Remove(i) => e.(prizes := RemovePrize(e.prizes, i))
    case Change(i, edit) => e.(prizes := ChangePrize(e.prizes, i, edit))
    case Rename(n) => e.(name := n)
    case SetKind(k) => e.(kind := k)
    case SaveSettled(ok) => AfterSave(e, ok)
  }

  /** The editor's prize list is never empty: every action keeps a row. */
  lemma EditorKeepsAPrize(e: Editor, step: EditorStep)
    requires |e.prizes| >= 1
    requires step.Change? ==> step.i < |e.prizes|
    ensures |EditorNext(e, step).prizes| >= 1
  {
  }

  /** Adding a blank prize and removing it again restores the list. */
  lemma RemoveUndoesAdd(ps: seq<Prize>)
    requires |ps| >= 1
    ensures RemovePrize(AddPrize(ps), |ps|) == ps
  {
  }

  /** Setting a field back to its old value restores the list. */
  lemma ChangeUndoesChange(ps: seq<Prize>, i: nat, edit: PrizeEdit)
    requires i < |ps|
    ensures var back := if edit.SetName? then SetName(ps[i].name) else SetQuantity(ps[i].quantity);
      ChangePrize(ChangePrize(ps, i, edit), i, back) == ps
  {
  }

  /** Filtering the saved prizes again removes nothing. */
  lemma ValidPrizesIdempotent(ps: seq<Prize>)
    ensures ValidPrizes(ValidPrizes(ps)) == ValidPrizes(ps)
  {
    Lists.KeepIdempotent(ps, HasName);
  }

  /** The quantity input reads back every non-zero integer it displays, and
      turns an empty input and "0" into 1. */
  lemma QuantityReadsBack(n: int)
    ensures QuantityFromInput(JsText.ShowInt(n)) == if n == 0 then 1 else n
    ensures QuantityFromInput("") == 1
  {
    JsText.ParseIntShowInt(n);
  }

  /** Typing a number followed by a fraction or exponent keeps the integer
      part: "1.5" gives 1, and "0.5" gives 1 because 0 is falsy. */
  lemma QuantityReadsLeadingInteger(n: int, rest: string)
    requires |rest| > 0 ==> !JsText.IsDecimalDigit(rest[0])
    requires n == 0 && |rest| > 0 ==> rest[0] != 'x' && rest[0] != 'X'
    ensures QuantityFromInput(JsText.ShowInt(n) + rest) == if n == 0 then 1 else n
  {
    JsText.ParseIntStopsAtNonDigit(n, rest);
  }

  /** Leading zeros change nothing: "00" gives 1 and "07" gives 7. */
  lemma QuantityOfLeadingZeros(ds: string)
    requires |ds| > 0 && forall i :: 0 <= i < |ds| ==> JsText.IsDecimalDigit(ds[i])
    ensures QuantityFromInput("0" + ds) == QuantityFromInput(ds)
  {
    JsText.ParseIntLeadingZero(ds);
  }

  /** The "players" panel: whether it is open, for which campaign, and its list. */
  datatype Panel = Panel(open: bool, selected: Option<Campaign>, participants: seq<Participant>)

  /** `openParticipantsModal`, before its fetch settles. */
  function OpenPanel(p: Panel, c: Campaign): (r: Panel)
    ensures r.open && r.selected == Some(c) && r.participants == p.participants
  {
    p.(open := true, selected := Some(c))
  }

  /** The fetch of the campaign's participants succeeded. */
  function PanelLoaded(p: Panel, ps: seq<Participant>): (r: Panel)
    ensures r.participants == ps && r.(participants := p.participants) == p
  {
    p.(participants := ps)
  }

  /** `handleDeleteParticipant`: only after the confirmation and a successful
      DELETE does the local list lose exactly the entries with that id. */
  function DeleteFromPanel(p: Panel, id: string, confirmed: bool, deleted: bool): (r: Panel)
    ensures confirmed && deleted ==>
      && (forall q :: q in r.participants <==> q in p.participants && q.id != id)
      && (forall q :: multiset(r.participants)[q] == if q.id != id then multiset(p.participants)[q] else 0)
      && Lists.IsSubsequence(r.participants, p.participants)
    ensures !(confirmed && deleted) ==> r == p
    ensures r.(participants := p.participants) == p
  {
    if confirmed && deleted then p.(participants := Roster.WithoutId(p.participants, id)) else p
  }

  /** The panel state before any campaign is opened (lines 18-20). */
  function InitialPanel(): Panel {
    Panel(false, None, [])
  }

  /** `closeParticipantsModal`. */
  function ClosePanel(p: Panel): (r: Panel)
    ensures !r.open && r.selected.None? && r.participants == []
  {
    Panel(false, None, [])
  }

  /** Closing after an open and a load returns the panel to its initial
      state, whatever was opened or loaded. */
  lemma CloseUndoesOpen(p: Panel, c: Campaign, ps: seq<Participant>)
    ensures ClosePanel(PanelLoaded(OpenPanel(p, c), ps)) == InitialPanel()
    ensures ClosePanel(OpenPanel(p, c)) == InitialPanel()
  {
  }
}

=== FILE: js_text.dfy ===
/** The two JavaScript string routines the pages depend on:
    `String.prototype.trim` (blank prize names) and `parseInt` with no radix
    (the prize quantity field). */
module JsText {
  import opened Records

  /** ECMAScript WhiteSpace and LineTerminator code points, the characters
      both `trim` and `parseInt` skip. */
  predicate IsSpace(c: char) {
    || c == '\t' || c == '\n' || c == '\U{000B}' || c == '\U{000C}' || c == '\r' || c == ' '
    || c == '\U{00A0}' || c == '\U{1680}' || ('\U{2000}' <= c <= '\U{200A}')
    || c == '\U{2028}' || c == '\U{2029}' || c == '\U{202F}' || c == '\U{205F}'
    || c == '\U{3000}' || c == '\U{FEFF}'
  }

  /** `s` without its leading white space. */
  function TrimStart(s: string): (r: string)
    ensures |r| <= |s| && r == s[|s| - |r|..]
    ensures forall i :: 0 <= i < |s| - |r| ==> IsSpace(s[i])
    ensures |r| > 0 ==> !IsSpace(r[0])
    decreases |s|
  {
    if |s| > 0 && IsSpace(s[0]) then TrimStart(s[1..]) else s
  }

  /** `s` without its trailing white space. */
  function TrimEnd(s: string): (r: string)
    ensures |r| <= |s| && r == s[..|r|]
    ensures forall i :: |r| <= i < |s| ==> IsSpace(s[i])
    ensures |r| > 0 ==> !IsSpace(r[|r| - 1])
    decreases |s|
  {
    if |s| > 0 && IsSpace(s[|s| - 1]) then TrimEnd(s[..|s| - 1]) else s
  }

  /** `s.trim()`: a slice of `s` that drops only white space at both ends
      and neither starts nor ends with white space. */
  function Trim(s: string): (r: string)
    ensures var a := LeadingSpace(s);
      && a + |r| <= |s| && r == s[a..a + |r|]
      && (forall i :: 0 <= i < a ==> IsSpace(s[i]))
      && (forall i :: a + |r| <= i < |s| ==> IsSpace(s[i]))
    ensures |r| > 0 ==> !IsSpace(r[0]) && !IsSpace(r[|r| - 1])
  {
    var t := TrimStart(s);
    var r := TrimEnd(t);
    TrimSlices(s, t, r);
    r
  }

  /** The bookkeeping behind `Trim`'s contract: a prefix of a suffix is a slice. */
  lemma TrimSlices(s: string, t: string, r: string)
    requires |t| <= |s| && t == s[|s| - |t|..]
    requires |r| <= |t| && r == t[..|r|]
    requires forall i :: |r| <= i < |t| ==> IsSpace(t[i])
    ensures var a := |s| - |t|;
      && a + |r| <= |s| && r == s[a..a + |r|]
      && (forall i :: a + |r| <= i < |s| ==> IsSpace(s[i]))
      && (|r| > 0 ==> r[0] == t[0])
  {
    var a := |s| - |t|;
    forall i | a + |r| <= i < |s| ensures IsSpace(s[i]) {
      assert s[i] == t[i - a];
    }
  }

  /** How many white-space characters `s` starts with. */
  function LeadingSpace(s: string): (n: nat)
    ensures n <= |s|
  {
    |s| - |TrimStart(s)|
  }

  /** `s.trim() === ''`: the string is all white space. */
  function IsBlank(s: string): (r: bool)
    ensures r <==> forall i :: 0 <= i < |s| ==> IsSpace(s[i])
  {
    TrimsToEmptyIffAllSpace(s);
    Trim(s) == ""
  }

  /** A string trims to the empty string exactly when it is all white space. */
  lemma TrimsToEmptyIffAllSpace(s: string)
    ensures Trim(s) == "" <==> forall i :: 0 <= i < |s| ==> IsSpace(s[i])
  {
    var t := TrimStart(s);
    if |t| > 0 {
      assert t[0] == s[|s| - |t|];
      assert !IsSpace(t[0]);
    }
  }

  /** Trimming is idempotent. */
  lemma TrimIdempotent(s: string)
    ensures Trim(Trim(s)) == Trim(s)
  {
    var t := Trim(s);
    assert |t| > 0 ==> t[0] == TrimStart(s)[0];
  }

  predicate IsDecimalDigit(c: char) {
    '0' <= c <= '9'
  }

  predicate IsDigit(c: char, radix: int) {
    || IsDecimalDigit(c)
    || (radix == 16 && ('a' <= c <= 'f' || 'A' <= c <= 'F'))
  }

  function DigitValue(c: char): nat {
    if IsDecimalDigit(c) then (c - '0') as nat
    else if 'a' <= c <= 'f' then (c - 'a') as nat + 10
    else if 'A' <= c <= 'F' then (c - 'A') as nat + 10
    else 0
  }

  /** The longest prefix of `s` made of digits of the radix. */
  function DigitPrefix(s: string, radix: int): (r: string)
    ensures |r| <= |s| && r == s[..|r|]
    ensures forall i :: 0 <= i < |r| ==> IsDigit(r[i], radix)
    ensures |r| < |s| ==> !IsDigit(s[|r|], radix)
    decreases |s|
  {
    if |s| > 0 && IsDigit(s[0], radix) then [s[0]] + DigitPrefix(s[1..], radix) else []
  }

  /** `0x` or `0X`: the prefix that makes `parseInt` read hexadecimal. */
  predicate HexPrefix(u: string) {
    |u| >= 2 && u[0] == '0' && (u[1] == 'x' || u[1] == 'X')
  }

  /** The number a digit string denotes in the radix, most significant first. */
  function Value(ds: string, radix: nat): nat
    decreases |ds|
  {
    if |ds| == 0 then 0 else Value(ds[..|ds| - 1], radix) * radix + DigitValue(ds[|ds| - 1])
  }

  /** `parseInt(s)` with no radix (None for NaN): leading white space and
      one sign are skipped, then a number is read by `ParseMagnitude`. */
  function ParseInt(s: string): (r: Option<int>)
    ensures var t := TrimStart(s);
      var negative := |t| > 0 && t[0] == '-';
      var u := if |t| > 0 && (t[0] == '-' || t[0] == '+') then t[1..] else t;
      && (r.Some? ==> |u| > 0 && IsDecimalDigit(u[0]))
      && (|u| > 0 && IsDecimalDigit(u[0]) && !HexPrefix(u) ==> r.Some?)
      && (HexPrefix(u) && |DigitPrefix(u[2..], 16)| > 0 ==> r.Some?)
      && (r.Some? && negative ==> r.value <= 0)
      && (r.Some? && !negative ==> r.value >= 0)
  {
    var t := TrimStart(s);
    if |t| > 0 && t[0] == '-' then
      match ParseMagnitude(t[1..])
      case Some(v) => Some(0 - v as int)
      case None => None
    else if |t| > 0 && t[0] == '+' then Widen(ParseMagnitude(t[1..]))
    else Widen(ParseMagnitude(t))
  }

  /** The number `parseInt` reads is the value of the longest run of
      digits after the white space and the sign (hexadecimal after `0x`),
      with the sign applied. */
  lemma ParseIntReadsDigitRun(s: string)
    ensures var t := TrimStart(s);
      var negative := |t| > 0 && t[0] == '-';
      var u := if |t| > 0 && (t[0] == '-' || t[0] == '+') then t[1..] else t;
      var r := ParseInt(s);
      && (r.Some? && !HexPrefix(u) ==>
            (if negative then 0 - r.value else r.value) == Value(DigitPrefix(u, 10), 10))
      && (r.Some? && HexPrefix(u) ==>
            (if negative then 0 - r.value else r.value) == Value(DigitPrefix(u[2..], 16), 16))
  {
  }

  function Widen(m: Option<nat>): Option<int> {
    match m
    case Some(v) => Some(v)
    case None => None
  }

  /** An unsigned number: a `0x` or `0X` prefix selects hexadecimal, and the
      longest run of digits that follows is read; whatever comes after it (a
      fraction, an exponent) is ignored. No digits at all is NaN. */
  function ParseMagnitude(u: string): (r: Option<nat>)
    ensures r.Some? ==> |u| > 0 && IsDecimalDigit(u[0])
    ensures |u| > 0 && IsDecimalDigit(u[0]) && !HexPrefix(u) ==> r.Some?
    ensures HexPrefix(u) && |DigitPrefix(u[2..], 16)| > 0 ==> r.Some?
    ensures r.Some? && !HexPrefix(u) ==> r.value == Value(DigitPrefix(u, 10), 10)
    ensures r.Some? && HexPrefix(u) ==> r.value == Value(DigitPrefix(u[2..], 16), 16)
  {
    if HexPrefix(u) then
      var ds := DigitPrefix(u[2..], 16);
      if |ds| == 0 then None else Some(Value(ds, 16))
    else
      var ds := DigitPrefix(u, 10);
      if |ds| == 0 then None else Some(Value(ds, 10))
  }

  /** The decimal numeral of `n`, without leading zeros. */
  function Show(n: nat): (r: string)
    ensures |r| > 0
    ensures forall i :: 0 <= i < |r| ==> IsDecimalDigit(r[i])
    decreases n
  {
    if n < 10 then [('0' as int + n) as char] else Show(n / 10) + [('0' as int + n % 10) as char]
  }

  /** `String(n)` for an integer. */
  function ShowInt(n: int): string {
    if n < 0 then "-" + Show(-n) else Show(n)
  }

  lemma {:induction false} ValueOfShow(n: nat)
    ensures Value(Show(n), 10) == n
    decreases n
  {
    if n >= 10 {
      ValueOfShow(n / 10);
      var s := Show(n);
      assert s[..|s| - 1] == Show(n / 10);
    }
  }

  /** The digit run ends at the first character that is not a digit. */
  lemma {:induction false} DigitPrefixStops(ds: string, rest: string)
    requires forall i :: 0 <= i < |ds| ==> IsDecimalDigit(ds[i])
    requires |rest| > 0 ==> !IsDecimalDigit(rest[0])
    ensures DigitPrefix(ds + rest, 10) == ds
    decreases |ds|
  {
    if |ds| > 0 {
      assert (ds + rest)[1..] == ds[1..] + rest;
      DigitPrefixStops(ds[1..], rest);
    } else {
      assert ds + rest == rest;
    }
  }

  /** A numeral followed by text that does not continue it reads as the
      numeral. Only "0" followed by `x` or `X` would switch to hexadecimal. */
  lemma MagnitudeOfShow(n: nat, rest: string)
    requires |rest| > 0 ==> !IsDecimalDigit(rest[0])
    requires n == 0 && |rest| > 0 ==> rest[0] != 'x' && rest[0] != 'X'
    ensures ParseMagnitude(Show(n) + rest) == Some(n)
  {
    var d := Show(n);
    var u := d + rest;
    ValueOfShow(n);
    assert !HexPrefix(u) by {
      if |d| >= 2 {
        assert u[1] == d[1] && IsDecimalDigit(d[1]);
      } else if |u| >= 2 && d[0] == '0' {
        assert d == d[..0] + [d[0]];
        assert Value(d, 10) == 0;
        assert u[1] == rest[0];
      }
    }
    DigitPrefixStops(d, rest);
  }

  /** `parseInt` reads the integer a string starts with and ignores the rest
      from the first character that cannot continue it: "1.5" and "1e3"
      read as 1. */
  lemma ParseIntStopsAtNonDigit(n: int, rest: string)
    requires |rest| > 0 ==> !IsDecimalDigit(rest[0])
    requires n == 0 && |rest| > 0 ==> rest[0] != 'x' && rest[0] != 'X'
    ensures ParseInt(ShowInt(n) + rest) == Some(n)
  {
    if n < 0 {
      MagnitudeOfShow(-n, rest);
      NegativeStops(Show(-n), rest, -n);
      assert ShowInt(n) == "-" + Show(-n);
    } else {
      UnsignedStops(n, rest);
      assert ShowInt(n) == Show(n);
    }
  }

  /** The non-negative case: the numeral of `m`, then `rest`. */
  lemma UnsignedStops(m: nat, rest: string)
    requires |rest| > 0 ==> !IsDecimalDigit(rest[0])
    requires m == 0 && |rest| > 0 ==> rest[0] != 'x' && rest[0] != 'X'
    ensures ParseInt(Show(m) + rest) == Some(m)
  {
    var d := Show(m);
    MagnitudeOfShow(m, rest);
    assert (d + rest)[0] == d[0];
    UnsignedNumeral(d + rest, m);
  }

  /** The negative case: `-`, a numeral `d` and `rest`, where `d + rest`
      reads as `m`. */
  lemma NegativeStops(d: string, rest: string, m: nat)
    requires ParseMagnitude(d + rest) == Some(m)
    ensures ParseInt("-" + d + rest) == Some(0 - m)
  {
    var s := "-" + d + rest;
    assert s[0] == '-' && s[1..] == d + rest;
    NegatedNumeral(s, m);
  }

  /** A string starting with a digit reads as its magnitude. */
  lemma UnsignedNumeral(s: string, m: nat)
    requires |s| > 0 && IsDecimalDigit(s[0]) && ParseMagnitude(s) == Some(m)
    ensures ParseInt(s) == Some(m)
  {
    NoLeadingSpace(s);
    assert s[0] != '-' && s[0] != '+';
  }

  /** `-` followed by a string that reads as `m` reads as `-m`. */
  lemma NegatedNumeral(s: string, m: nat)
    requires |s| > 0 && s[0] == '-' && ParseMagnitude(s[1..]) == Some(m)
    ensures ParseInt(s) == Some(0 - m)
  {
    NoLeadingSpace(s);
  }

  lemma NoLeadingSpace(s: string)
    requires |s| > 0 && !IsSpace(s[0])
    ensures TrimStart(s) == s
  {
  }

  /** `parseInt` reads back every integer's decimal numeral. */
  lemma ParseIntShowInt(n: int)
    ensures ParseInt(ShowInt(n)) == Some(n)
  {
    ParseIntStopsAtNonDigit(n, "");
    assert ShowInt(n) + "" == ShowInt(n);
  }

  /** A leading zero adds nothing to a decimal digit string's value. */
  lemma {:induction false} ValueLeadingZero(ds: string)
    ensures Value("0" + ds, 10) == Value(ds, 10)
    decreases |ds|
  {
    if |ds| > 0 {
      var z := "0" + ds;
      assert z[..|z| - 1] == "0" + ds[..|ds| - 1];
      assert z[|z| - 1] == ds[|ds| - 1];
      ValueLeadingZero(ds[..|ds| - 1]);
    } else {
      assert ("0" + ds)[..0] == "";
    }
  }

  /** Leading zeros do not change the number read: "007" reads as "7", and
      "00" as 0. */
  lemma ParseIntLeadingZero(ds: string)
    requires |ds| > 0 && forall i :: 0 <= i < |ds| ==> IsDecimalDigit(ds[i])
    ensures ParseInt("0" + ds) == ParseInt(ds)
  {
    var z := "0" + ds;
    assert forall i :: 1 <= i < |z| ==> z[i] == ds[i - 1];
    MagnitudeOfDigits(z);
    MagnitudeOfDigits(ds);
    ValueLeadingZero(ds);
    UnsignedNumeral(z, Value(ds, 10));
    UnsignedNumeral(ds, Value(ds, 10));
  }

  /** A plain run of decimal digits reads as its decimal value. */
  lemma MagnitudeOfDigits(ds: string)
    requires |ds| > 0 && forall i :: 0 <= i < |ds| ==> IsDecimalDigit(ds[i])
    ensures ParseMagnitude(ds) == Some(Value(ds, 10))
  {
    assert |ds| >= 2 ==> IsDecimalDigit(ds[1]);
    DigitPrefixStops(ds, "");
    assert ds + "" == ds;
  }
}

=== FILE: lists.dfy ===
/** The two list combinators the code uses everywhere, `Array.prototype.filter`
    and `Array.prototype.map`, with the facts about them that the reducers and
    handlers rely on. */
module Lists {

  /** `r` can be obtained from `s` by deleting elements: same relative order. */
  ghost predicate IsSubsequence<T>(r: seq<T>, s: seq<T>)
    decreases |s|
  {
    || |r| == 0
    || (&& |s| > 0
        && ((r[0] == s[0] && IsSubsequence(r[1..], s[1..])) || IsSubsequence(r, s[1..])))
  }

  /** The elements of `s` satisfying `f`, in their order in `s`, each as often
      as it occurs in `s` (a filter). */
  function Keep<T(!new)>(s: seq<T>, f: T -> bool): (r: seq<T>)
    ensures forall x :: x in r <==> x in s && f(x)
    ensures forall x :: multiset(r)[x] == if f(x) then multiset(s)[x] else 0
    ensures IsSubsequence(r, s)
    decreases |s|
  {
    if |s| == 0 then []
    else
      assert s == [s[0]] + s[1..];
      if f(s[0]) then [s[0]] + Keep(s[1..], f) else Keep(s[1..], f)
  }

  /** `f` applied to every element of `s` (a map). */
  function Apply<T, U>(s: seq<T>, f: T -> U): (r: seq<U>)
    ensures |r| == |s|
    ensures forall i :: 0 <= i < |s| ==> r[i] == f(s[i])
    decreases |s|
  {
    if |s| == 0 then [] else [f(s[0])] + Apply(s[1..], f)
  }

  /** Filtering a list with one more element at the end filters the old list
      and then keeps or drops the new element. */
  lemma {:induction false} KeepAppend<T(!new)>(s: seq<T>, x: T, f: T -> bool)
    ensures Keep(s + [x], f) == Keep(s, f) + (if f(x) then [x] else [])
    decreases |s|
  {
    if |s| == 0 {
      assert s + [x] == [x];
    } else {
      var t := s + [x];
      var h := if f(s[0]) then [s[0]] else [];
      var tail := if f(x) then [x] else [];
      assert t[0] == s[0] && t[1..] == s[1..] + [x];
      var k := Keep(s[1..], f);
      KeepAppend(s[1..], x, f);
      KeepStep(s, f);
      KeepStep(t, f);
      calc {
        Keep(t, f);
        h + Keep(s[1..] + [x], f);
        h + (k + tail);
        { Associative(h, k, tail); }
        (h + k) + tail;
        Keep(s, f) + tail;
      }
    }
  }

  lemma Associative<T>(a: seq<T>, b: seq<T>, c: seq<T>)
    ensures a + (b + c) == (a + b) + c
  {
  }

  /** One unfolding of `Keep`. */
  lemma KeepStep<T(!new)>(s: seq<T>, f: T -> bool)
    requires |s| > 0
    ensures Keep(s, f) == (if f(s[0]) then [s[0]] else []) + Keep(s[1..], f)
  {
    if !f(s[0]) {
      assert [] + Keep(s[1..], f) == Keep(s[1..], f);
    }
  }

  /** Filtering commutes with a map that does not change the filter's verdict. */
  lemma {:induction false} KeepApplyCommute<T(!new)>(s: seq<T>, f: T -> T, g: T -> bool)
    requires forall x :: g(f(x)) == g(x)
    ensures Keep(Apply(s, f), g) == Apply(Keep(s, g), f)
    decreases |s|
  {
    if |s| != 0 {
      KeepApplyCommute(s[1..], f, g);
      assert Apply(s, f)[1..] == Apply(s[1..], f);
    }
  }

  /** Two filters commute. */
  lemma {:induction false} KeepCommute<T(!new)>(s: seq<T>, f: T -> bool, g: T -> bool)
    ensures Keep(Keep(s, f), g) == Keep(Keep(s, g), f)
    decreases |s|
  {
    if |s| != 0 {
      KeepCommute(s[1..], f, g);
    }
  }

  /** Filtering twice with the same test is filtering once. */
  lemma {:induction false} KeepIdempotent<T(!new)>(s: seq<T>, f: T -> bool)
    ensures Keep(Keep(s, f), f) == Keep(s, f)
    decreases |s|
  {
    if |s| != 0 {
      KeepIdempotent(s[1..], f);
    }
  }

  /** Maps that agree on the elements of `s` give the same list. */
  lemma {:induction false} ApplyCongruent<T, U>(s: seq<T>, f: T -> U, h: T -> U)
    requires forall x :: x in s ==> f(x) == h(x)
    ensures Apply(s, f) == Apply(s, h)
    decreases |s|
  {
    if |s| != 0 {
      ApplyCongruent(s[1..], f, h);
    }
  }
}

=== FILE: records.dfy ===
/** Record shapes shared by the server and the three client pages: the rows of
    the `campaigns` and `participants` tables and the prize entries a campaign
    stores as a JSON array. */
module Records {

  /** A value that may be absent: a JSON field left out of a request body, or
      a nullable column. */
  datatype Option<+T> = None | Some(value: T) {
    function GetOr(default: T): T {
      match this
      case Some(v) => v
      case None => default
    }
  }

  /** The `status` column. The server only ever writes these two values. */
  datatype Status = CheckedIn | Won

  /** A row of the `participants` table. The `code` and `created_at` columns
      are never written by the handlers and are not modelled. */
  datatype Participant = Participant(
    id: string,
    campaignId: string,
    name: string,
    phone: Option<string>,
    status: Status,
    wonPrize: Option<string>)

  /** One entry of a campaign's prize list. `quantity` is display-only: no
      handler ever decrements it. */
  datatype Prize = Prize(name: string, quantity: int)

  /** A row of the `campaigns` table, with `prizes` already decoded from JSON.
      `kind` is the `type` column ('OFFLINE' or 'ONLINE'). */
  datatype Campaign = Campaign(id: string, name: string, kind: string, prizes: seq<Prize>)
}

=== FILE: rooms.dfy ===
/** The socket.io side of the server: the events it publishes and the
    room -> socket-set relation that `io.to(room).emit(...)` fans out over. */
module Events {
  import opened Records

  /** The campaign-scoped events, one constructor per event name. */
  datatype Event =
    | ParticipantJoined(participant: Participant)
    | WinnerSelected(participant: Participant)
    | ParticipantDeleted(id: string)
    | StartSpin(duration: Option<int>)

  /** One `io.to(room).emit(event)` call. */
  datatype Emit = Emit(room: string, event: Event)

  /** The events of `emits` addressed to `room`, in emission order. */
  function ForRoom(emits: seq<Emit>, room: string): (r: seq<Event>)
    ensures |r| <= |emits|
    ensures forall e :: e in r <==> Emit(room, e) in emits
    decreases |emits|
  {
    if |emits| == 0 then []
    else
      assert emits == [emits[0]] + emits[1..];
      (if emits[0].room == room then [emits[0].event] else []) + ForRoom(emits[1..], room)
  }
}

module Rooms {
  import opened Events

  /** Room name -> ids of the sockets currently in it. */
  type Rooms = map<string, set<string>>

  /** The sockets an emit to `room` reaches. */
  function Members(rs: Rooms, room: string): set<string> {
    if room in rs then rs[room] else {}
  }

  /** `socket.join(room)` on a `join_campaign` message. */
  function Join(rs: Rooms, socket: string, room: string): (r: Rooms)
    ensures Members(r, room) == Members(rs, room) + {socket}
    ensures forall other :: other != room ==> Members(r, other) == Members(rs, other)
  {
    rs[room := Members(rs, room) + {socket}]
  }

  /** `socket.leave(room)`: the socket leaves one room and every other room
      is as it was. The server has no handler that does this. */
  function Leave(rs: Rooms, socket: string, room: string): (r: Rooms)
    ensures Members(r, room) == Members(rs, room) - {socket}
    ensures forall other :: other != room ==> Members(r, other) == Members(rs, other)
  {
    rs[room := Members(rs, room) - {socket}]
  }

  /** The big screen mounted on campaign `a`, then, after in-app navigation
      on the one app-wide socket, on campaign `b`: its cleanup only removes
      listeners, so the socket joins `b` and stays in `a`. */
  function Relaunch(rs: Rooms, socket: string, a: string, b: string): (r: Rooms)
    ensures socket in Members(r, a) && socket in Members(r, b)
  {
    Join(Join(rs, socket, a), socket, b)
  }

  /** The same navigation with a cleanup that leaves the room it joined. */
  function RelaunchLeaving(rs: Rooms, socket: string, a: string, b: string): (r: Rooms)
    ensures socket in Members(r, b)
    ensures a != b ==> Members(r, a) == Members(rs, a) - {socket}
  {
    Join(Leave(Join(rs, socket, a), socket, a), socket, b)
  }

  /** A socket that starts in no room is, after a relaunch that leaves its
      room, in exactly the room of the campaign now shown. */
  lemma RelaunchLeavingKeepsOneRoom(rs: Rooms, socket: string, a: string, b: string)
    requires forall room :: socket !in Members(rs, room)
    ensures forall room :: socket in Members(RelaunchLeaving(rs, socket, a, b), room) <==> room == b
  {
    var r1 := Join(rs, socket, a);
    var r2 := Leave(r1, socket, a);
    assert forall room :: socket !in Members(r2, room);
  }

  /** On disconnect the socket leaves every room it was in; rooms left empty
      are dropped, as the socket.io adapter does. */
  function Disconnect(rs: Rooms, socket: string): (r: Rooms)
    ensures forall room :: Members(r, room) == Members(rs, room) - {socket}
    ensures forall room :: room in r ==> r[room] != {}
  {
    map room | room in rs && rs[room] - {socket} != {} :: rs[room] - {socket}
  }

  /** What one socket receives from a batch of emits: every event addressed
      to a room it is in, in emission order. */
  function Inbox(rs: Rooms, emits: seq<Emit>, socket: string): (r: seq<Event>)
    ensures forall e :: e in r <==> exists room :: socket in Members(rs, room) && Emit(room, e) in emits
    decreases |emits|
  {
    if |emits| == 0 then []
    else
      assert emits == [emits[0]] + emits[1..];
      (if socket in Members(rs, emits[0].room) then [emits[0].event] else []) + Inbox(rs, emits[1..], socket)
  }

  /** A socket that is in exactly one room receives exactly that room's
      events, in order: nothing published to another campaign reaches it. */
  lemma {:induction false} InboxOfSingleRoom(rs: Rooms, emits: seq<Emit>, socket: string, room: string)
    requires forall other :: socket in Members(rs, other) <==> other == room
    ensures Inbox(rs, emits, socket) == ForRoom(emits, room)
    decreases |emits|
  {
    if |emits| != 0 {
      InboxOfSingleRoom(rs, emits[1..], socket, room);
    }
  }

  /** Joining twice is joining once. */
  lemma JoinIdempotent(rs: Rooms, socket: string, room: string)
    ensures Join(Join(rs, socket, room), socket, room) == Join(rs, socket, room)
  {
  }

  /** A join is undone by the disconnect of the same socket. */
  lemma DisconnectUndoesJoin(rs: Rooms, socket: string, room: string)
    ensures Disconnect(Join(rs, socket, room), socket) == Disconnect(rs, socket)
  {
    var a := Disconnect(Join(rs, socket, room), socket);
    var b := Disconnect(rs, socket);
    assert forall k :: k in a <==> k in b;
    assert forall k :: k in a ==> a[k] == Members(rs, k) - {socket} == b[k];
  }
}

=== FILE: roster.dfy ===
/** Views and updates of a list of participants that the server and the
    client pages both perform: the campaign listing, the eligible pool, and
    replace- and delete-by-id. */
module Roster {
  import opened Records
  import Lists

  /** No two rows share an id (the PRIMARY KEY of the `participants` table). */
  ghost predicate UniqueIds(ps: seq<Participant>) {
    forall i, j :: 0 <= i < j < |ps| ==> ps[i].id != ps[j].id
  }

  /** The ids present in `ps`. */
  function Ids(ps: seq<Participant>): set<string> {
    set p | p in ps :: p.id
  }

  /** The rows of one campaign, in table order (`WHERE campaign_id = ?`). */
  function InCampaign(ps: seq<Participant>, campaignId: string): (r: seq<Participant>)
    ensures forall p :: p in r <==> p in ps && p.campaignId == campaignId
    ensures Lists.IsSubsequence(r, ps)
  {
    Lists.Keep(ps, BelongsTo(campaignId))
  }

  /** The listing's row test. */
  function BelongsTo(campaignId: string): Participant -> bool {
    (p: Participant) => p.campaignId == campaignId
  }

  /** The pool a draw picks from: everyone whose status is not WON, in list
      order. */
  function Eligible(ps: seq<Participant>): (r: seq<Participant>)
    ensures forall p :: p in r <==> p in ps && p.status != Won
    ensures forall p :: multiset(r)[p] == if p.status != Won then multiset(ps)[p] else 0
    ensures Lists.IsSubsequence(r, ps)
  {
    Lists.Keep(ps, IsEligible)
  }

  predicate IsEligible(p: Participant) {
    p.status != Won
  }

  /** Every entry except those with the given id, in list order. */
  function WithoutId(ps: seq<Participant>, id: string): (r: seq<Participant>)
    ensures forall p :: p in r <==> p in ps && p.id != id
    ensures forall p :: multiset(r)[p] == if p.id != id then multiset(ps)[p] else 0
    ensures id !in Ids(r)
    ensures Lists.IsSubsequence(r, ps)
  {
    Lists.Keep(ps, OtherThan(id))
  }

  /** The delete reducers' entry test. */
  function OtherThan(id: string): Participant -> bool {
    (p: Participant) => p.id != id
  }

  /** Each entry whose id is `q.id` replaced by `q`, the rest untouched. */
  function ReplaceById(ps: seq<Participant>, q: Participant): (r: seq<Participant>)
    ensures |r| == |ps|
    ensures forall i :: 0 <= i < |ps| && ps[i].id != q.id ==> r[i] == ps[i]
    ensures forall i :: 0 <= i < |ps| && ps[i].id == q.id ==> r[i] == q
    ensures Ids(r) == Ids(ps)
    ensures q in r <==> q.id in Ids(ps)
  {
    var r := Lists.Apply(ps, ReplaceWith(q));
    assert forall p :: p in r ==> exists i :: 0 <= i < |ps| && r[i] == p;
    assert forall p :: p in ps ==> exists i :: 0 <= i < |ps| && ps[i] == p;
    r
  }

  /** The replace reducer's per-entry update. */
  function ReplaceWith(q: Participant): Participant -> Participant {
    (p: Participant) => if p.id == q.id then q else p
  }

  /** A check-in that is not yet a winner joins the end of the eligible pool. */
  lemma EligibleAfterJoin(ps: seq<Participant>, p: Participant)
    requires p.status != Won
    ensures Eligible(ps + [p]) == Eligible(ps) + [p]
  {
    Lists.KeepAppend(ps, p, IsEligible);
  }

  /** Recording a WON record removes exactly that participant from the pool
      and leaves the rest of the pool in order. */
  lemma {:induction false} EligibleAfterWinner(ps: seq<Participant>, q: Participant)
    requires q.status == Won
    ensures Eligible(ReplaceById(ps, q)) == WithoutId(Eligible(ps), q.id)
    decreases |ps|
  {
    if |ps| != 0 {
      EligibleAfterWinner(ps[1..], q);
      assert ReplaceById(ps, q)[1..] == ReplaceById(ps[1..], q);
      assert ReplaceById(ps, q) == [ReplaceById(ps, q)[0]] + ReplaceById(ps[1..], q);
    }
  }

  /** Deleting by id and taking the pool can be done in either order. */
  lemma EligibleAfterDelete(ps: seq<Participant>, id: string)
    ensures Eligible(WithoutId(ps, id)) == WithoutId(Eligible(ps), id)
  {
    Lists.KeepCommute(ps, OtherThan(id), IsEligible);
  }
}

=== FILE: server.dfy ===
/** The Express handlers of the server over an in-memory copy of the two
    tables. Each handler returns the new tables, the HTTP outcome and the
    socket.io emits it made; the UUID the server would generate is passed in
    as `freshId`. */
module Server {
  import opened Records
  import opened Events
  import Lists
  import Roster

  /** The `campaigns` table keyed by id, and the `participants` table as its
      rows in insertion order. */
  datatype Store = Store(campaigns: map<string, Campaign>, participants: seq<Participant>)

  /** Table constraints: participant ids are unique and every campaign is
      stored under its own id. */
  ghost predicate Valid(st: Store) {
    && Roster.UniqueIds(st.participants)
    && forall k :: k in st.campaigns ==> st.campaigns[k].id == k
  }

  /** Response bodies, one per JSON shape the handlers send. */
  datatype Body =
    | CampaignBody(campaign: Campaign)
    | CreatedBody(id: string, name: string, kind: string, prizes: Option<seq<Prize>>)
    | ParticipantBody(participant: Participant)
    | ParticipantsBody(participants: seq<Participant>)

  /** `res.json(...)`, a 404, a 500 (any exception in a handler), and the
      absence of any HTTP answer for a socket message. */
  datatype Response = Ok(body: Body) | NotFound | ServerError | NoReply

  datatype Reply = Reply(store: Store, response: Response, emits: seq<Emit>)

  /** An unchanged store, an error and no emits. */
  function Fail(st: Store, response: Response): Reply {
    Reply(st, response, [])
  }

  /** POST /api/campaigns. Both `name` and `type` are NOT NULL; a missing
      prize list is stored as []; the reply echoes the prizes as sent. */
  function CreateCampaign(st: Store, freshId: string, name: Option<string>, kind: Option<string>,
                          prizes: Option<seq<Prize>>): (r: Reply)
    ensures r.response.Ok? <==> freshId !in st.campaigns && name.Some? && kind.Some?
    ensures r.response.Ok? ==>
      && r.store.campaigns.Keys == st.campaigns.Keys + {freshId}
      && r.store.campaigns[freshId] == Campaign(freshId, name.value, kind.value, prizes.GetOr([]))
      && (forall k :: k in st.campaigns ==> r.store.campaigns[k] == st.campaigns[k])
      && r.response.body == CreatedBody(freshId, name.value, kind.value, prizes)
    ensures !r.response.Ok? ==> r.response == ServerError && r.store == st
    ensures r.store.participants == st.participants && r.emits == []
  {
    if freshId in st.campaigns || name.None? || kind.None? then Fail(st, ServerError)
    else
      var c := Campaign(freshId, name.value, kind.value, prizes.GetOr([]));
      Reply(st.(campaigns := st.campaigns[freshId := c]), Ok(CreatedBody(freshId, name.value, kind.value, prizes)), [])
  }

  /** GET /api/campaigns/:id. */
  function GetCampaign(st: Store, id: string): (r: Reply)
    ensures r.response.Ok? <==> id in st.campaigns
    ensures r.response.Ok? ==> r.response.body == CampaignBody(st.campaigns[id])
    ensures !r.response.Ok? ==> r.response == NotFound
    ensures r.store == st && r.emits == []
  {
    if id in st.campaigns then Reply(st, Ok(CampaignBody(st.campaigns[id])), []) else Fail(st, NotFound)
  }

  /** JavaScript truthiness of an optional string: present and non-empty. */
  predicate Truthy(s: Option<string>) {
    s.Some? && s.value != ""
  }

  /** PUT /api/campaigns/:id. The name is written only when it is truthy, the
      prize list whenever it is present (an empty array is truthy); both
      UPDATEs are no-ops on an unknown id, which then answers 404. */
  function UpdateCampaign(st: Store, id: string, name: Option<string>, prizes: Option<seq<Prize>>): (r: Reply)
    ensures r.response.Ok? <==> id in st.campaigns
    ensures !r.response.Ok? ==> r.response == NotFound && r.store == st
    ensures r.store.campaigns.Keys == st.campaigns.Keys
    ensures forall k :: k in st.campaigns && k != id ==> r.store.campaigns[k] == st.campaigns[k]
    ensures r.response.Ok? ==>
      && r.store.campaigns[id].id == st.campaigns[id].id
      && r.store.campaigns[id].kind == st.campaigns[id].kind
      && r.store.campaigns[id].name == (if Truthy(name) then name.value else st.campaigns[id].name)
      && r.store.campaigns[id].prizes == (if prizes.Some? then prizes.value else st.campaigns[id].prizes)
      && r.response.body == CampaignBody(r.store.campaigns[id])
    ensures r.store.participants == st.participants && r.emits == []
  {
    var cs1 := if Truthy(name) && id in st.campaigns
               then st.campaigns[id := st.campaigns[id].(name := name.value)] else st.campaigns;
    var cs2 := if prizes.Some? && id in cs1
               then cs1[id := cs1[id].(prizes := prizes.value)] else cs1;
    var st' := st.(campaigns := cs2);
    if id in cs2 then Reply(st', Ok(CampaignBody(cs2[id])), []) else Fail(st', NotFound)
  }

  /** POST /api/participants. The INSERT fails (500) on a duplicate id, a
      missing `campaign_id` or `name` (NOT NULL), or a `campaign_id` naming no
      campaign (FOREIGN KEY). Otherwise one CHECKED_IN row is appended and
      `participant_joined` goes to that campaign's room. Nothing compares
      phones: duplicates are accepted. */
  function CheckIn(st: Store, freshId: string, campaignId: Option<string>, name: Option<string>,
                   phone: Option<string>): (r: Reply)
    ensures r.response.Ok? <==>
      freshId !in Roster.Ids(st.participants) && campaignId.Some? && campaignId.value in st.campaigns && name.Some?
    ensures r.response.Ok? ==>
      var p := Participant(freshId, campaignId.value, name.value, phone, CheckedIn, None);
      && r.store == st.(participants := st.participants + [p])
      && r.response.body == ParticipantBody(p)
      && r.emits == [Emit(campaignId.value, ParticipantJoined(p))]
    ensures !r.response.Ok? ==> r.response == ServerError && r.store == st && r.emits == []
  {
    if freshId in Roster.Ids(st.participants) || campaignId.None? || name.None? || campaignId.value !in st.campaigns then
      Fail(st, ServerError)
    else
      var p := Participant(freshId, campaignId.value, name.value, phone, CheckedIn, None);
      Reply(st.(participants := st.participants + [p]), Ok(ParticipantBody(p)), [Emit(campaignId.value, ParticipantJoined(p))])
  }

  /** GET /api/participants/:campaignId. An unknown campaign lists nothing. */
  function ListParticipants(st: Store, campaignId: string): (r: Reply)
    ensures r.response.Ok? && r.response.body.ParticipantsBody?
    ensures forall p :: p in r.response.body.participants <==> p in st.participants && p.campaignId == campaignId
    ensures Lists.IsSubsequence(r.response.body.participants, st.participants)
    ensures r.store == st && r.emits == []
  {
    Reply(st, Ok(ParticipantsBody(Roster.InCampaign(st.participants, campaignId))), [])
  }

  /** `UPDATE participants SET status = 'WON', won_prize = ? WHERE id = ?`. */
  function MarkWon(rows: seq<Participant>, id: string, prize: Option<string>): (r: seq<Participant>)
    ensures |r| == |rows|
    ensures forall i :: 0 <= i < |rows| && rows[i].id == id ==> r[i] == rows[i].(status := Won, wonPrize := prize)
    ensures forall i :: 0 <= i < |rows| && rows[i].id != id ==> r[i] == rows[i]
  {
    Lists.Apply(rows, WinUpdate(id, prize))
  }

  /** The UPDATE's effect on one row. */
  function WinUpdate(id: string, prize: Option<string>): Participant -> Participant {
    (p: Participant) => if p.id == id then p.(status := Won, wonPrize := prize) else p
  }

  /** `SELECT * ... WHERE id = ?` with `.get`: the first matching row. */
  function Lookup(rows: seq<Participant>, id: string): (r: Option<Participant>)
    ensures r.Some? <==> id in Roster.Ids(rows)
    ensures r.Some? ==> r.value in rows && r.value.id == id
    decreases |rows|
  {
    if |rows| == 0 then None
    else if rows[0].id == id then Some(rows[0])
    else
      assert rows == [rows[0]] + rows[1..];
      Lookup(rows[1..], id)
  }

  /** POST /api/participants/:id/win. The UPDATE runs unconditionally; the
      row is then re-read. If there is none, reading its `campaign_id` throws
      and the reply is a 500 with no broadcast. Otherwise `winner_selected`
      goes to the room of the row's campaign. There is no already-won check. */
  function Win(st: Store, id: string, prize: Option<string>): (r: Reply)
    ensures r.response.Ok? <==> id in Roster.Ids(st.participants)
    ensures r.store.campaigns == st.campaigns
    ensures |r.store.participants| == |st.participants|
    ensures forall i :: 0 <= i < |st.participants| && st.participants[i].id != id ==>
      r.store.participants[i] == st.participants[i]
    ensures forall i :: 0 <= i < |st.participants| && st.participants[i].id == id ==>
      r.store.participants[i] == st.participants[i].(status := Won, wonPrize := prize)
    ensures r.response.Ok? ==>
      && r.response.body.ParticipantBody?
      && var p := r.response.body.participant;
      && p in r.store.participants && p.id == id && p.status == Won && p.wonPrize == prize
      && r.emits == [Emit(p.campaignId, WinnerSelected(p))]
    ensures !r.response.Ok? ==> r.response == ServerError && r.store == st && r.emits == []
  {
    var rows := MarkWon(st.participants, id, prize);
    var st' := st.(participants := rows);
    match Lookup(rows, id)
    case None =>
      assert forall i :: 0 <= i < |rows| ==> st.participants[i] in st.participants;
      assert rows == st.participants;
      Fail(st', ServerError)
    case Some(p) =>
      assert id in Roster.Ids(st.participants);
      Reply(st', Ok(ParticipantBody(p)), [Emit(p.campaignId, WinnerSelected(p))])
  }

  /** The `trigger_spin` socket message: `start_spin` to the named room. */
  function TriggerSpin(st: Store, campaignId: string, duration: Option<int>): (r: Reply)
    ensures r.store == st && r.response == NoReply
    ensures ForRoom(r.emits, campaignId) == [StartSpin(duration)]
    ensures forall other :: other != campaignId ==> ForRoom(r.emits, other) == []
  {
    Reply(st, NoReply, [Emit(campaignId, StartSpin(duration))])
  }

  /** The requests the server receives. The last three are sent by the
      dashboard but have no route on the server. */
  datatype Request =
    | PostCampaign(freshId: string, name: Option<string>, kind: Option<string>, prizes: Option<seq<Prize>>)
    | GetCampaignById(id: string)
    | PutCampaign(id: string, newName: Option<string>, newPrizes: Option<seq<Prize>>)
    | PostParticipant(participantId: string, owner: Option<string>, participantName: Option<string>, phone: Option<string>)
    | GetParticipants(campaignId: string)
    | PostWin(id: string, prize: Option<string>)
    | SocketTriggerSpin(campaignId: string, duration: Option<int>)
    | DeleteParticipant(id: string)
    | DeleteCampaign(id: string)
    | PostReset(id: string)

  /** Route a request to its handler; a request with no route gets Express's
      default 404 and touches nothing. */
  function Handle(st: Store, req: Request): (r: Reply)
    ensures (req.DeleteParticipant? || req.DeleteCampaign? || req.PostReset?) ==>
      r == Reply(st, NotFound, [])
  {
    match req
    case PostCampaign(fid, n, k, ps) => CreateCampaign(st, fid, n, k, ps)
    case GetCampaignById(id) => GetCampaign(st, id)
    case PutCampaign(id, n, ps) => UpdateCampaign(st, id, n, ps)
    case PostParticipant(fid, c, n, ph) => CheckIn(st, fid, c, n, ph)
    case GetParticipants(c) => ListParticipants(st, c)
    case PostWin(id, prize) => Win(st, id, prize)
    case SocketTriggerSpin(c, d) => TriggerSpin(st, c, d)
    case DeleteParticipant(_) => Fail(st, NotFound)
    case DeleteCampaign(_) => Fail(st, NotFound)
    case PostReset(_) => Fail(st, NotFound)
  }

  /** Rows with equal ids are the same row. */
  lemma SameIdSameRow(rows: seq<Participant>, x: Participant, y: Participant)
    requires Roster.UniqueIds(rows) && x in rows && y in rows && x.id == y.id
    ensures x == y
  {
    var i :| 0 <= i < |rows| && rows[i] == x;
    var j :| 0 <= j < |rows| && rows[j] == y;
    assert rows[i].id == rows[j].id;
    assert i == j;
  }

  /** Every request keeps the table constraints. */
  lemma HandlePreservesValid(st: Store, req: Request)
    requires Valid(st)
    ensures Valid(Handle(st, req).store)
  {
    var r := Handle(st, req);
    match req
    case PostParticipant(fid, c, n, ph) =>
      if r.response.Ok? {
        var rows := r.store.participants;
        forall i, j | 0 <= i < j < |rows| ensures rows[i].id != rows[j].id {
          if j == |st.participants| {
            assert st.participants[i] in st.participants;
          }
        }
      }
    case PostWin(id, prize) =>
      var rows := r.store.participants;
      forall i, j | 0 <= i < j < |rows| ensures rows[i].id != rows[j].id {
        assert rows[i].id == st.participants[i].id && rows[j].id == st.participants[j].id;
      }
    case _ =>
  }

  /** Nothing compares phone numbers: two check-ins with the same phone in
      the same campaign are both accepted, and both rows are stored. */
  lemma DuplicatePhoneAccepted(st: Store, id1: string, id2: string, campaignId: string,
                               name1: string, name2: string, phone: string)
    requires campaignId in st.campaigns
    requires id1 != id2 && id1 !in Roster.Ids(st.participants) && id2 !in Roster.Ids(st.participants)
    ensures var r1 := CheckIn(st, id1, Some(campaignId), Some(name1), Some(phone));
      var r2 := CheckIn(r1.store, id2, Some(campaignId), Some(name2), Some(phone));
      && r1.response.Ok? && r2.response.Ok?
      && r2.store.participants == st.participants + [
           Participant(id1, campaignId, name1, Some(phone), CheckedIn, None),
           Participant(id2, campaignId, name2, Some(phone), CheckedIn, None)]
  {
    var r1 := CheckIn(st, id1, Some(campaignId), Some(name1), Some(phone));
    assert Roster.Ids(r1.store.participants) == Roster.Ids(st.participants) + {id1};
  }

  /** Nothing guards against a second win: it succeeds and overwrites the
      recorded prize. */
  lemma SecondWinOverwrites(st: Store, id: string, first: Option<string>, second: Option<string>)
    requires id in Roster.Ids(st.participants)
    ensures var r1 := Win(st, id, first);
      var r2 := Win(r1.store, id, second);
      && r1.response.Ok? && r2.response.Ok?
      && r2.response.body.participant.wonPrize == second
      && r2.store.participants == Win(st, id, second).store.participants
  {
    WinKeepsIds(st, id, first);
    WinStoresMarkWon(st, id, first);
    WinStoresMarkWon(Win(st, id, first).store, id, second);
    WinStoresMarkWon(st, id, second);
    MarkWonTwice(st.participants, id, first, second);
  }

  /** A second UPDATE of the same row leaves only its own prize. */
  lemma MarkWonTwice(rows: seq<Participant>, id: string, first: Option<string>, second: Option<string>)
    ensures MarkWon(MarkWon(rows, id, first), id, second) == MarkWon(rows, id, second)
  {
  }

  /** The win handler's table is the UPDATE's result, whether or not the row exists. */
  lemma WinStoresMarkWon(st: Store, id: string, prize: Option<string>)
    ensures Win(st, id, prize).store == st.(participants := MarkWon(st.participants, id, prize))
  {
  }

  /** With unique ids the reply's record is the updated form of every row with
      that id, and it stays in the row's campaign. */
  lemma WinnerIsUpdatedRow(st: Store, id: string, prize: Option<string>)
    requires Valid(st) && Win(st, id, prize).response.Ok?
    ensures var p := Win(st, id, prize).response.body.participant;
      forall x :: x in st.participants && x.id == id ==> WinUpdate(id, prize)(x) == p && x.campaignId == p.campaignId
  {
    var r := Win(st, id, prize);
    var p := r.response.body.participant;
    var i :| 0 <= i < |r.store.participants| && r.store.participants[i] == p;
    forall x | x in st.participants && x.id == id
      ensures WinUpdate(id, prize)(x) == p && x.campaignId == p.campaignId
    {
      SameIdSameRow(st.participants, x, st.participants[i]);
    }
  }

  /** The UPDATE, seen through one campaign's listing, is the UPDATE of that listing. */
  lemma ListingAfterMarkWon(rows: seq<Participant>, c: string, id: string, prize: Option<string>)
    ensures Roster.InCampaign(MarkWon(rows, id, prize), c) == MarkWon(Roster.InCampaign(rows, c), id, prize)
  {
    Lists.KeepApplyCommute(rows, WinUpdate(id, prize), Roster.BelongsTo(c));
  }

  /** On a list whose rows with the id all update to `p`, the UPDATE is the
      replace-by-id reducer with `p`. */
  lemma MarkWonIsReplace(list: seq<Participant>, id: string, prize: Option<string>, p: Participant)
    requires p.id == id
    requires forall x :: x in list && x.id == id ==> WinUpdate(id, prize)(x) == p
    ensures MarkWon(list, id, prize) == Roster.ReplaceById(list, p)
  {
    Lists.ApplyCongruent(list, WinUpdate(id, prize), Roster.ReplaceWith(p));
  }

  /** On a list with no row of that id, the UPDATE changes nothing. */
  lemma MarkWonMissing(list: seq<Participant>, id: string, prize: Option<string>)
    requires forall x :: x in list ==> x.id != id
    ensures MarkWon(list, id, prize) == list
  {
    var r := MarkWon(list, id, prize);
    assert forall i :: 0 <= i < |list| ==> list[i] in list;
    assert forall i :: 0 <= i < |list| ==> r[i] == list[i];
  }

  /** A win keeps the set of participant ids. */
  lemma WinKeepsIds(st: Store, id: string, prize: Option<string>)
    ensures Roster.Ids(Win(st, id, prize).store.participants) == Roster.Ids(st.participants)
  {
    var rows := st.participants;
    var rows' := Win(st, id, prize).store.participants;
    forall x | x in Roster.Ids(rows) ensures x in Roster.Ids(rows') {
      var i :| 0 <= i < |rows| && rows[i].id == x;
      assert rows'[i] in rows';
    }
    forall x | x in Roster.Ids(rows') ensures x in Roster.Ids(rows) {
      var i :| 0 <= i < |rows'| && rows'[i].id == x;
      assert rows[i] in rows;
    }
  }
}

=== FILE: sync.dfy ===
/** How the pages and the server fit together: a big screen that starts in
    step with the server's listing stays in step through every request, a
    draw round trip, and the dashboard requests that have no route. */
module Sync {
  import opened Records
  import opened Events
  import Lists
  import Roster
  import Rooms
  import Server
  import BigScreen
  import Dashboard
  import JsText

  /** The screen shows exactly the server's listing of campaign `c`. */
  ghost predicate InStep(s: BigScreen.Screen, st: Server.Store, c: string) {
    s.participants == Roster.InCampaign(st.participants, c)
  }

  /** Only the participant events touch the participant list. */
  lemma {:induction false} EventsOnlyTouchList(s: BigScreen.Screen, es: seq<Event>)
    requires forall e :: e in es ==> e.StartSpin?
    ensures BigScreen.ApplyEvents(s, es).participants == s.participants
    decreases |es|
  {
    if |es| != 0 {
      assert es[0] in es;
      assert forall e :: e in es[1..] ==> e in es;
      EventsOnlyTouchList(BigScreen.OnEvent(s, es[0]), es[1..]);
    }
  }

  lemma CheckInKeepsInStep(st: Server.Store, s: BigScreen.Screen, c: string,
                           fid: string, owner: Option<string>, name: Option<string>, phone: Option<string>)
    requires InStep(s, st, c)
    ensures var r := Server.CheckIn(st, fid, owner, name, phone);
      BigScreen.ApplyEvents(s, ForRoom(r.emits, c)).participants == Roster.InCampaign(r.store.participants, c)
  {
    var r := Server.CheckIn(st, fid, owner, name, phone);
    if r.response.Ok? {
      var p := Participant(fid, owner.value, name.value, phone, CheckedIn, None);
      Lists.KeepAppend(st.participants, p, (q: Participant) => q.campaignId == c);
    }
  }

  /** The win UPDATE, seen through one campaign's listing: either nothing in
      that listing has the id, or the winner's record replaces it. */
  lemma WinKeepsInStep(st: Server.Store, s: BigScreen.Screen, c: string, id: string, prize: Option<string>)
    requires Server.Valid(st) && InStep(s, st, c)
    ensures var r := Server.Win(st, id, prize);
      BigScreen.ApplyEvents(s, ForRoom(r.emits, c)).participants == Roster.InCampaign(r.store.participants, c)
  {
    var r := Server.Win(st, id, prize);
    var list := Roster.InCampaign(st.participants, c);
    Server.WinStoresMarkWon(st, id, prize);
    Server.ListingAfterMarkWon(st.participants, c, id, prize);
    if r.response.Ok? && r.response.body.participant.campaignId == c {
      WinInOwnRoom(st, s, c, id, prize);
    } else {
      assert ForRoom(r.emits, c) == [];
      if r.response.Ok? {
        Server.WinnerIsUpdatedRow(st, id, prize);
      }
      assert forall x :: x in list ==> x.id != id;
      Server.MarkWonMissing(list, id, prize);
    }
  }

  lemma WinInOwnRoom(st: Server.Store, s: BigScreen.Screen, c: string, id: string, prize: Option<string>)
    requires Server.Valid(st) && InStep(s, st, c)
    requires Server.Win(st, id, prize).response.Ok?
    requires Server.Win(st, id, prize).response.body.participant.campaignId == c
    ensures var r := Server.Win(st, id, prize);
      BigScreen.ApplyEvents(s, ForRoom(r.emits, c)).participants == Server.MarkWon(Roster.InCampaign(st.participants, c), id, prize)
  {
    var r := Server.Win(st, id, prize);
    var p := r.response.body.participant;
    Server.WinnerIsUpdatedRow(st, id, prize);
    Server.MarkWonIsReplace(Roster.InCampaign(st.participants, c), id, prize, p);
    assert ForRoom(r.emits, c) == [WinnerSelected(p)];
    BigScreen.ApplyOne(s, WinnerSelected(p));
  }

  /** A screen that shows the server's listing of its campaign still shows it
      after any request, once it has applied the events emitted to its room. */
  lemma HandleKeepsInStep(st: Server.Store, s: BigScreen.Screen, c: string, req: Server.Request)
    requires Server.Valid(st) && InStep(s, st, c)
    ensures var r := Server.Handle(st, req);
      BigScreen.ApplyEvents(s, ForRoom(r.emits, c)).participants == Roster.InCampaign(r.store.participants, c)
  {
    var r := Server.Handle(st, req);
    match req
    case PostParticipant(fid, o, n, ph) => CheckInKeepsInStep(st, s, c, fid, o, n, ph);
    case PostWin(id, prize) => WinKeepsInStep(st, s, c, id, prize);
    case SocketTriggerSpin(room, d) =>
      EventsOnlyTouchList(s, ForRoom(r.emits, c));
    case _ =>
      assert ForRoom(r.emits, c) == [];
  }

  /** The same, for a socket that has joined only campaign `c`: it receives
      exactly that room's events, so it stays in step. */
  lemma ViewerInOneRoomStaysInStep(st: Server.Store, s: BigScreen.Screen, c: string, req: Server.Request,
                                   rs: Rooms.Rooms, socket: string)
    requires Server.Valid(st) && InStep(s, st, c)
    requires forall room :: socket in Rooms.Members(rs, room) <==> room == c
    ensures var r := Server.Handle(st, req);
      InStep(BigScreen.ApplyEvents(s, Rooms.Inbox(rs, r.emits, socket)), r.store, c)
  {
    var r := Server.Handle(st, req);
    Rooms.InboxOfSingleRoom(rs, r.emits, socket, c);
    HandleKeepsInStep(st, s, c, req);
  }

  /** The page as written: a screen for campaign "B" on a socket that was
      relaunched from campaign "A" takes in a check-in to "A" and no longer
      shows the server's listing of "B". */
  lemma RelaunchedScreenTakesOtherCampaign()
    ensures var rs := Rooms.Relaunch(map[], "sock", "A", "B");
      var st := Server.Store(map["A" := Campaign("A", "a", "OFFLINE", []), "B" := Campaign("B", "b", "OFFLINE", [])], []);
      var s := BigScreen.Initial();
      var r := Server.Handle(st, Server.PostParticipant("p", Some("A"), Some("n"), None));
      && Server.Valid(st) && InStep(s, st, "B")
      && r.response.Ok?
      && !InStep(BigScreen.ApplyEvents(s, Rooms.Inbox(rs, r.emits, "sock")), r.store, "B")
  {
    var rs := Rooms.Relaunch(map[], "sock", "A", "B");
    var st := Server.Store(map["A" := Campaign("A", "a", "OFFLINE", []), "B" := Campaign("B", "b", "OFFLINE", [])], []);
    var s := BigScreen.Initial();
    var p := Participant("p", "A", "n", None, CheckedIn, None);
    var r := Server.Handle(st, Server.PostParticipant("p", Some("A"), Some("n"), None));
    assert r == Server.CheckIn(st, "p", Some("A"), Some("n"), None);
    assert r.emits == [Emit("A", ParticipantJoined(p))];
    assert "sock" in Rooms.Members(rs, "A");
    assert Rooms.Inbox(rs, r.emits, "sock") == [ParticipantJoined(p)] + Rooms.Inbox(rs, [], "sock");
    var s2 := BigScreen.ApplyEvents(s, [ParticipantJoined(p)]);
    BigScreen.ApplyOne(s, ParticipantJoined(p));
    assert s2.participants == [p];
    assert Roster.InCampaign(r.store.participants, "B") == [];
  }

  /** With a cleanup that leaves its room, a relaunched screen receives only
      its own campaign's events and stays in step through every request. */
  lemma RelaunchedScreenStaysInStep(st: Server.Store, s: BigScreen.Screen, req: Server.Request,
                                    rs: Rooms.Rooms, socket: string, a: string, b: string)
    requires Server.Valid(st) && InStep(s, st, b)
    requires forall room :: socket !in Rooms.Members(rs, room)
    ensures var r := Server.Handle(st, req);
      InStep(BigScreen.ApplyEvents(s, Rooms.Inbox(Rooms.RelaunchLeaving(rs, socket, a, b), r.emits, socket)), r.store, b)
  {
    Rooms.RelaunchLeavingKeepsOneRoom(rs, socket, a, b);
    ViewerInOneRoomStaysInStep(st, s, b, req, Rooms.RelaunchLeaving(rs, socket, a, b), socket);
  }

  /** A win request for someone in campaign `c`'s listing succeeds and
      emits one `winner_selected`, to room `c`, carrying the updated record. */
  lemma WinOfListed(st: Server.Store, c: string, x: Participant, prize: Option<string>)
    requires Server.Valid(st) && x in Roster.InCampaign(st.participants, c)
    ensures var r := Server.Win(st, x.id, prize);
      && r.response.Ok?
      && var p := r.response.body.participant;
      && p.id == x.id && p.status == Won && p.wonPrize == prize
      && ForRoom(r.emits, c) == [WinnerSelected(p)]
  {
    var r := Server.Win(st, x.id, prize);
    assert x.id in Roster.Ids(st.participants);
    Server.WinnerIsUpdatedRow(st, x.id, prize);
  }

  /** One draw end to end: a screen in step with the server spins, its
      animation ends on index `k`, the server accepts the win request, and
      once the screen applies the `winner_selected` it receives, it has
      stopped spinning, shows the winner with the prize, has lost exactly
      that participant from its pool and is still in step. */
  lemma DrawRoundTrip(st: Server.Store, s: BigScreen.Screen, c: string, k: nat)
    requires Server.Valid(st) && InStep(s, st, c)
    requires !BigScreen.SpinBlocked(s) && BigScreen.CurrentPrize(s).Some?
    requires k < |Roster.Eligible(s.participants)|
    ensures var (s2, req) := BigScreen.FinishSpin(BigScreen.HandleSpin(s), |s.pending|, k);
      && req.Some?
      && var r := Server.Win(st, req.value.participantId, Some(req.value.prize));
      && r.response.Ok?
      && var s3 := BigScreen.ApplyEvents(s2, ForRoom(r.emits, c));
      && !s3.isSpinning
      && s3.winner.Some? && s3.winner.value.id == req.value.participantId
      && s3.winner.value.wonPrize == Some(BigScreen.CurrentPrize(s).value.name)
      && Roster.Eligible(s3.participants) == Roster.WithoutId(Roster.Eligible(s.participants), req.value.participantId)
      && InStep(s3, r.store, c)
  {
    BigScreen.SpinPicksEligible(s, k);
    var (s2, req) := BigScreen.FinishSpin(BigScreen.HandleSpin(s), |s.pending|, k);
    var prize := Some(req.value.prize);
    var x :| x in s.participants && x.status != Won && x.id == req.value.participantId;
    WinOfListed(st, c, x, prize);
    var r := Server.Win(st, x.id, prize);
    var p := r.response.body.participant;
    BigScreen.ReceiveWinner(s2, p);
    Roster.EligibleAfterWinner(s.participants, p);
    WinKeepsInStep(st, s2, c, x.id, prize);
  }

  /** The client flag is the only guard: two screens in step with the server
      can each run a draw, and the server accepts both win requests. */
  lemma NoServerSideDrawLock(st: Server.Store, s1: BigScreen.Screen, s2: BigScreen.Screen, c: string, k1: nat, k2: nat)
    requires Server.Valid(st) && InStep(s1, st, c) && InStep(s2, st, c)
    requires !BigScreen.SpinBlocked(s1) && BigScreen.CurrentPrize(s1).Some?
    requires !BigScreen.SpinBlocked(s2) && BigScreen.CurrentPrize(s2).Some?
    requires k1 < |Roster.Eligible(s1.participants)| && k2 < |Roster.Eligible(s2.participants)|
    ensures var req1 := BigScreen.FinishSpin(BigScreen.HandleSpin(s1), |s1.pending|, k1).1;
      var req2 := BigScreen.FinishSpin(BigScreen.HandleSpin(s2), |s2.pending|, k2).1;
      && req1.Some? && req2.Some?
      && var r1 := Server.Win(st, req1.value.participantId, Some(req1.value.prize));
      && var r2 := Server.Win(r1.store, req2.value.participantId, Some(req2.value.prize));
      && r1.response.Ok? && r2.response.Ok?
  {
    BigScreen.SpinPicksEligible(s1, k1);
    BigScreen.SpinPicksEligible(s2, k2);
    var req1 := BigScreen.FinishSpin(BigScreen.HandleSpin(s1), |s1.pending|, k1).1;
    var req2 := BigScreen.FinishSpin(BigScreen.HandleSpin(s2), |s2.pending|, k2).1;
    var x :| x in s1.participants && x.id == req1.value.participantId;
    var y :| y in s2.participants && y.id == req2.value.participantId;
    WinOfListed(st, c, x, Some(req1.value.prize));
    Server.WinKeepsIds(st, x.id, Some(req1.value.prize));
    assert y.id in Roster.Ids(st.participants);
  }

  /** The dashboard's delete reaches no route: the server answers 404,
      changes nothing, and the panel keeps its list. */
  lemma DeleteNeverApplies(st: Server.Store, p: Dashboard.Panel, id: string, confirmed: bool)
    ensures var r := Server.Handle(st, Server.DeleteParticipant(id));
      r.store == st && r.emits == [] && Dashboard.DeleteFromPanel(p, id, confirmed, r.response.Ok?) == p
  {
  }

  /** Saving an edited campaign stores exactly the non-blank prizes, in
      editor order, and the name unless it is empty. */
  lemma SaveStoresValidPrizes(st: Server.Store, e: Dashboard.Editor, freshId: string)
    requires e.editing.Some? && e.editing.value.id in st.campaigns
    ensures var r := Server.Handle(st, Dashboard.SaveRequest(e, freshId));
      var stored := r.store.campaigns[e.editing.value.id];
      && r.response.Ok?
      && stored.prizes == Dashboard.ValidPrizes(e.prizes)
      && (forall q :: q in stored.prizes ==> !JsText.IsBlank(q.name))
      && stored.name == (if e.name != "" then e.name else st.campaigns[e.editing.value.id].name)
  {
  }

  /** The players panel of campaign `c` shows exactly the server's listing of
      `c` once its fetch settles, and keeps showing it when a delete from
      the panel reaches the server, which answers 404. */
  lemma PanelShowsListing(st: Server.Store, p: Dashboard.Panel, c: Campaign, id: string, confirmed: bool)
    ensures var reply := Server.ListParticipants(st, c.id);
      var q := Dashboard.PanelLoaded(Dashboard.OpenPanel(p, c), reply.response.body.participants);
      && q.open && q.selected == Some(c)
      && q.participants == Roster.InCampaign(st.participants, c.id)
      && var del := Server.Handle(st, Server.DeleteParticipant(id));
         Dashboard.DeleteFromPanel(q, id, confirmed, del.response.Ok?).participants
           == Roster.InCampaign(del.store.participants, c.id)
  {
  }

  /** Saving a new campaign stores it under the fresh id with the editor's
      name and type and exactly the non-blank prizes; no other campaign and
      no participant changes. */
  lemma SaveCreatesCampaign(st: Server.Store, e: Dashboard.Editor, freshId: string)
    requires e.editing.None? && freshId !in st.campaigns
    ensures var r := Server.Handle(st, Dashboard.SaveRequest(e, freshId));
      && r.response.Ok?
      && r.store.campaigns == st.campaigns[freshId := Campaign(freshId, e.name, e.kind, Dashboard.ValidPrizes(e.prizes))]
      && r.store.participants == st.participants
  {
  }
}
